=== FILE: README.md ===
# COVID analysis core, modelled in Dafny

This project models the data-handling core of the `covid_analysis` package:

- the cleaning steps of `COVIDDataCleaner` (`datacleaner.py`);
- the read-only queries of `DataSummary` (`datasummary.py`);
- the pure parts of the Worldometer scraper and the file downloader (`scrape.py`).

## The pandas frame

A pandas DataFrame is an immutable `Table` value (`tables.dfy`). It has two parts:

- the ordered column labels;
- the rows.

Each row is a `Record` with its index label and a map from column label to cell. A cell is `Option<Value>`, where `None` is NaN/NaT.

A `Value` is one of `Num(int)`, `Text(string)` or `Day(int)`. They are compared by the total order `Le` (`values.dfy`). `WellFormed` says two things: the labels are distinct, and every row has exactly one cell per column.

## How operations are modelled

- **Cleaning steps.** Each in-place step of the cleaner (`cleaner.dfy`) becomes a function from the frame before the step to the frame after it.
- **Missing columns.** Where the Python code indexes `df[column]` for a column the frame lacks, pandas raises `KeyError`. The model returns `Err(KeyError(column))` instead, and the contracts state which key is reported first.
- **Summary queries.** The queries of `DataSummary` (`summary.dfy`) are functions of the frame. So by construction none of them changes it.
- **Scraper and downloader.** In `scrape.py` the network, the HTML parser and the file system are left out (`scrape.dfy`). Instead:
  - the texts of the parsed `<td>` cells, or of the counter `<div>`s, arrive as parameters;
  - the HTTP response arrives as a parameter;
  - the file written by the downloader is part of the result.

## Generic sequence facts

`seqs.dfy` holds the facts the modules above share:

- filtering (a boolean mask), with its membership, multiset and subsequence properties;
- insertion sort, with sortedness and permutation;
- first-occurrence de-duplication.

## Named wrappers without rows

- `DataSummary.HighestCaseCountries`, `HighestDeathCountries` and `HighestVaccinationCountries` are `Highest` with the measure fixed.
- `DataSummary.DefaultTopN` (10) and `DataCleaner.DefaultFill` (`Num(0)`) are the Python default arguments, and serve as the default parameter values of the `Highest*Countries` wrappers and of `FillMissingValues`; `SortData` likewise defaults `ascending` to `true`.

## Behaviour worth knowing

- **`sort_data`.** `sort_values` uses pandas' default quicksort, so tied rows come out in no promised order. `SortData` states a permutation ordered with nulls last, and nothing about ties.
- **`highest_*_countries`.**
  - The result is `groupby('location')[measure].max().nlargest(top_n)`. A `top_n <= 0` gives an empty result, not an error.
  - Locations are grouped by the `location` column, not by `iso_code`.
  - Rows whose `location` is null belong to no group.
  - No order among tied maxima is promised: depending on the pandas version and on `top_n`, `nlargest` ends in a quicksort or in a selection.
  - A location whose measure is null in every row gets a NaN maximum. Whether `nlargest` lists it depends on the pandas version (see `TopLocations` under Left out).
- **`trend_over_time`.** The (date, measure) pairs come out in the frame's row order; nothing sorts them by date.
- **Download success.** `download_covid_data` returns True only for status 200; every other status, 2xx included, returns False.
- **Short rows.** A scraped row with fewer than 15 cells raises `IndexError` from `cols[12]` or `cols[14]`.
- **Column errors.** Operations on a missing column raise `KeyError`.
- **Text measures.** `nlargest` raises `TypeError` on a column of `object` dtype, so `highest_*_countries` fails on a measure that holds texts.

## Model

| member | source | states |
|---|---|---|
| Values.LeTotalOrder | covid_analysis/datacleaner.py:122 | the order used to compare cells (sorting, max, min, nlargest) is reflexive, transitive, antisymmetric and total |
| DataCleaner.FillColumn | covid_analysis/datacleaner.py:76-78 | one loop step: a present column's null cells become the fill value and every other cell, label and column stays; an absent column leaves the frame unchanged |
| DataCleaner.FillMissingValues | covid_analysis/datacleaner.py:70-78 | a cell becomes the fill value exactly when its column is listed, present and the cell was null; columns, row count and labels are kept and the frame stays well formed |
| DataCleaner.FillMissingIgnoresAbsent | covid_analysis/datacleaner.py:77 | listing a column the frame lacks changes nothing; it is skipped, not an error |
| DataCleaner.FillMissingIdempotent | covid_analysis/datacleaner.py:70-78 | filling the same columns again gives the same frame |
| DataCleaner.DropUnnecessaryColumns | covid_analysis/datacleaner.py:80-85 | the remaining columns are exactly the old ones not listed, in their old order; absent names are ignored; rows, labels and remaining cells are unchanged |
| DataCleaner.DropColumnsIdempotent | covid_analysis/datacleaner.py:85 | dropping the same names twice is dropping them once |
| DataCleaner.RemoveRowsWithMissingValues | covid_analysis/datacleaner.py:87-89 | a row is kept exactly when some cell is non-null, with its multiplicity, in order, with its label |
| DataCleaner.ResetIndex | covid_analysis/datacleaner.py:91-93 | row i gets label i and keeps its cells; order and columns are unchanged |
| DataCleaner.ResetIndexKeepsLabelled | covid_analysis/datacleaner.py:93 | resetting the index of a frame already labelled 0, 1, 2, ... changes nothing |
| DataCleaner.ResetIndexIdempotent | covid_analysis/datacleaner.py:93 | resetting the index twice is resetting it once |
| DataCleaner.RemoveDuplicateRows | covid_analysis/datacleaner.py:95-97 | a frame without columns is returned whole, as pandas treats it as empty; otherwise no two kept rows have equal cells; every distinct row content survives; each kept row is the first row with its content, and kept rows follow the order of those first rows |
| DataCleaner.RemoveDuplicatesIdempotent | covid_analysis/datacleaner.py:97 | de-duplicating twice is de-duplicating once |
| DataCleaner.ReplaceValues | covid_analysis/datacleaner.py:99-106 | a missing column is a KeyError; otherwise exactly the cells of that column equal to the old value become the new value, where either value may be NaN and NaN matches NaN; all other cells, labels and columns stay |
| DataCleaner.ReplaceSameIsIdentity | covid_analysis/datacleaner.py:106 | replacing a value by itself returns the frame unchanged |
| DataCleaner.ReplaceRemovesOld | covid_analysis/datacleaner.py:106 | after replacing the old value by anything else, NaN included, filtering the column for the old value finds no rows |
| DataCleaner.ReplaceNullIsFill | covid_analysis/datacleaner.py:106 | replacing NaN by a value in a column is the same frame as the `fillna` step of `fill_missing_values` for that column |
| DataCleaner.ReplaceByNullThenDrop | covid_analysis/datacleaner.py:106 | after replacing a value by NaN, dropping the rows missing that column keeps exactly the original rows whose cell there is neither null nor that value |
| DataCleaner.FilterByValue | covid_analysis/datacleaner.py:108-114 | a missing column is a KeyError; otherwise the result holds exactly the rows whose cell equals the value (null never matches), with their multiplicities, as a subsequence of the rows |
| DataCleaner.RowOrderIsTotalPreorder | covid_analysis/datacleaner.py:122 | comparing rows by one column, nulls last, in either direction, is total and transitive |
| DataCleaner.SortedRowsByKey | covid_analysis/datacleaner.py:122 | in rows sorted that way no non-null cell follows a null one and the non-null cells run in the requested direction |
| DataCleaner.SortData | covid_analysis/datacleaner.py:116-122 | ascending by default; a missing column is a KeyError; otherwise the rows are a permutation of the old rows, with nulls last and non-null keys ascending or descending as requested |
| DataCleaner.DropRowsWithMissingValuesInColumn | covid_analysis/datacleaner.py:124-129 | a missing column is a KeyError; otherwise exactly the rows null in that column go, the rest stay in order with their multiplicities |
| DataSummary.GetBasicInfo | covid_analysis/datasummary.py:65-73 | the row count, the column count and the column labels in frame order |
| DataSummary.DropColumnsShrinksInfo | covid_analysis/datasummary.py:69 | after dropping columns, the reported column count falls by exactly the number of frame columns that were listed |
| DataSummary.NullCount | covid_analysis/datasummary.py:117 | the null count of a column is at most the row count, is 0 exactly when no row is null there, and equals the row count exactly when all are |
| DataSummary.NullCountComplement | covid_analysis/datasummary.py:117 | the null cells and the non-null cells of a column together account for every row |
| DataSummary.NullCountIsDroppedRows | covid_analysis/datasummary.py:115-117 | a column's null count is the number of rows that dropping rows missing that column removes |
| DataSummary.GetMissingValues | covid_analysis/datasummary.py:115-117 | one entry per column, in frame order, holding that column's null count |
| DataSummary.CheckNullValues | covid_analysis/datasummary.py:111-113 | one entry per column, in frame order, true exactly when some row is null there |
| DataSummary.GetMissingValuesInfo | covid_analysis/datasummary.py:75-78 | exactly the columns with a positive null count, with that count, in column order |
| DataSummary.Uniques | covid_analysis/datasummary.py:86 | the distinct values of a column are exactly the non-null cells of some row; there are at most as many as rows, and none exactly when the column is all null |
| DataSummary.FirstMissing | covid_analysis/datasummary.py:86 | none when every requested name is a column; otherwise the first requested name that is not |
| DataSummary.UniqueCounts | covid_analysis/datasummary.py:86 | one key per requested name, mapped to the number of distinct non-null values of that column |
| DataSummary.GetUniqueValuesInfo | covid_analysis/datasummary.py:84-87 | a KeyError for the first requested column the frame lacks; otherwise every requested column maps to its distinct non-null count, at most the row count and 0 exactly when the column is all null |
| DataSummary.MaxOfIsMax | covid_analysis/datasummary.py:134 | `Series.max()` is null exactly when every entry is, otherwise is an entry that no non-null entry exceeds |
| DataSummary.MinOfIsMin | covid_analysis/datasummary.py:142 | `Series.min()` is null exactly when every entry is, otherwise is an entry that exceeds no non-null entry |
| DataSummary.ColumnMaxIsMax | covid_analysis/datasummary.py:146-148 | the maximum of a column over some rows is null exactly when all those cells are, else the cell of one of the rows, and no cell exceeds it |
| DataSummary.ColumnMinIsMin | covid_analysis/datasummary.py:141-142 | the same for the minimum |
| DataSummary.MaxOfSubset | covid_analysis/datasummary.py:134-136 | the maximum over fewer rows is null or no larger than the maximum over more rows |
| DataSummary.Summarize | covid_analysis/datasummary.py:133-137 | the three measure columns are read in order, so the first one missing is the KeyError; otherwise each entry is that measure's maximum |
| DataSummary.CountrySpecificSummary | covid_analysis/datasummary.py:131-138 | a KeyError for `iso_code` first; otherwise the measure maxima over the rows of that code, all null (never 0) when no row matches |
| DataSummary.GlobalSummary | covid_analysis/datasummary.py:144-150 | defined exactly when the three measure columns exist, and then holds their maxima over all rows |
| DataSummary.ContinentSummary | covid_analysis/datasummary.py:152-159 | a KeyError for `continent` first; otherwise the measure maxima over the rows of that continent |
| DataSummary.SummaryOfSubset | covid_analysis/datasummary.py:153-157 | summaries over a subset of rows never exceed those over the whole |
| DataSummary.ContinentAtMostGlobal | covid_analysis/datasummary.py:152-159 | a continent's maxima are null or no larger than the global ones |
| DataSummary.CountryAtMostGlobal | covid_analysis/datasummary.py:131-138 | a country's maxima are null or no larger than the global ones |
| DataSummary.DateRange | covid_analysis/datasummary.py:140-142 | a KeyError without `date`; otherwise the earliest and the latest date, both null or both non-null, the first not after the second |
| DataSummary.GroupMaxesIsColumnMax | covid_analysis/datasummary.py:162 | the groupby maximum of a location equals the maximum of the measure over the rows whose location is that one |
| DataSummary.GroupMaxIsColumnMax | covid_analysis/datasummary.py:162 | the same, for a frame |
| DataSummary.GroupMaxHasKey | covid_analysis/datasummary.py:162 | a location with a maximum is one of the groupby keys |
| DataSummary.GroupKeys | covid_analysis/datasummary.py:162 | the groupby keys are distinct, ascending, and exactly the non-null locations of the rows |
| DataSummary.Groups | covid_analysis/datasummary.py:162 | the (location, maximum) pairs of the given keys whose maximum is non-null; distinct keys give distinct pairs |
| DataSummary.ByValueDescendingIsTotalPreorder | covid_analysis/datasummary.py:162 | ranking pairs by descending value is total and transitive |
| DataSummary.Ranked | covid_analysis/datasummary.py:162 | every (location, maximum) pair, each location once, larger maxima first |
| DataSummary.SortGroups | covid_analysis/datasummary.py:162 | the groups, reordered (a permutation) by descending maximum |
| DataSummary.RankedFacts | covid_analysis/datasummary.py:162 | the sorted groups hold exactly the true per-location maxima, each location once |
| DataSummary.TopKeepsRanking | covid_analysis/datasummary.py:162 | `nlargest(n)` keeps at most n entries, each a true per-location maximum, largest first, no location twice |
| DataSummary.TopIsComplete | covid_analysis/datasummary.py:162 | `nlargest(n)` omits nothing when it returns fewer than n, and what it omits is no larger than its last entry |
| DataSummary.ShortTopListsAll | covid_analysis/datasummary.py:162 | fewer than n entries means every location with a maximum is listed |
| DataSummary.TopCutsSmaller | covid_analysis/datasummary.py:162 | every location left out has a maximum no larger than the last one listed |
| DataSummary.TopLocations | covid_analysis/datasummary.py:161-168 | nothing for n <= 0; at most n pairs of a location and its maximum, largest first, each location once; omitted locations are no larger than the last pair, and none are omitted when fewer than n are returned |
| DataSummary.Highest | covid_analysis/datasummary.py:161-168 | a KeyError for `location`, then for the measure; a TypeError when the measure column holds texts, since `nlargest` refuses `object` columns; otherwise the top locations above |
| DataSummary.DatePairs | covid_analysis/datasummary.py:172 | one (date, measure) pair per row, in row order |
| DataSummary.DatePairsOfSubsequence | covid_analysis/datasummary.py:171-172 | the pairs of a subsequence of rows are a subsequence of the pairs of the rows |
| DataSummary.MatchingPairs | covid_analysis/datasummary.py:171-172 | every pair of one country's rows is the (date, measure) pair of some row of that country |
| DataSummary.TrendOverTime | covid_analysis/datasummary.py:170-172 | KeyErrors in the order `iso_code`, `date`, measure; otherwise the pairs of the filtered rows in row order, a subsequence of all pairs, each from a row of that country |
| Scraper.StripTrims | covid_analysis/scrape.py:38 | `strip()` returns a stretch of the text with only whitespace around it that neither starts nor ends with whitespace |
| Scraper.StripUnique | covid_analysis/scrape.py:38 | any such stretch is what `strip()` returns, so the two lemmas characterise it completely |
| Scraper.StripIdempotent | covid_analysis/scrape.py:38 | stripping twice is stripping once |
| Scraper.StripPadded | covid_analysis/scrape.py:49-51 | surrounding a text with whitespace does not change what `strip()` returns |
| Scraper.Slice | covid_analysis/scrape.py:34 | Python slicing clamps both bounds to the length and yields the elements from the start on |
| Scraper.RowWindow | covid_analysis/scrape.py:34 | `[8:229]` keeps at most 221 rows, none when there are at most 8, and row k of the window is row 8 + k |
| Scraper.ProjectRow | covid_analysis/scrape.py:38-39 | a row with fewer than 15 cells raises IndexError; otherwise 11 texts, the k-th being the stripped cell `SourceCell(k)` (1 to 9, then 12, then 14) |
| Scraper.ExtractRecords | covid_analysis/scrape.py:36-39 | every row projected in order; any short row makes the whole extraction an IndexError |
| Scraper.CellsFrom | covid_analysis/scrape.py:41 | a row whose keys are the labels and whose k-th label holds the k-th text |
| Scraper.BuildFrame | covid_analysis/scrape.py:41 | `pd.DataFrame(data, columns=...)`: a well-formed frame with those labels, one row per record labelled 0, 1, ..., holding that record's texts |
| Scraper.FetchData | covid_analysis/scrape.py:31-41 | an IndexError exactly when some window row is short; otherwise a frame with the 11 field labels, one row per window row, whose cells are the stripped source cells |
| Scraper.GetGlobalStats | covid_analysis/scrape.py:43-52 | fewer than three counters raise IndexError; otherwise the three labels map to the first three counters, stripped |
| Scraper.LastSlash | covid_analysis/scrape.py:92 | the position of the last slash before a bound, or -1 when there is none: a slash sits there and none after it |
| Scraper.LastSegment | covid_analysis/scrape.py:92 | `url.split('/')[-1]` is the suffix after the last slash and holds no slash |
| Scraper.LastSegmentOfJoin | covid_analysis/scrape.py:92 | the last segment of `path + "/" + name` is `name` when `name` has no slash; the three facts about `LastSegment` pin it down |
| Scraper.OutputName | covid_analysis/scrape.py:91-92 | a non-empty given name is used as is; no name or an empty name means the URL's last segment |
| Scraper.DownloadCovidData | covid_analysis/scrape.py:83-101 | any status but 200 writes nothing and returns False; status 200 with a non-empty chosen name writes the body unchanged under that name and returns True; status 200 with an empty name fails to open the file; True is returned exactly when a file is written |
| Scraper.DownloadSavesUnderUrlName | covid_analysis/scrape.py:90-98 | downloading `.../name` with status 200 and no name given saves the body under `name` |

## Left out

- Fetching the page (`requests.get`, including the Worldometer URL), parsing HTML with BeautifulSoup, `print`, and writing the file are not modelled. Cell texts, counter texts and the HTTP response are parameters. The written file is part of the result.
- `soup.find("tbody")` returning `None` raises `AttributeError` in `fetch_data`. This is not modelled: the rows are given.
- The `open` call can also fail for reasons other than an empty name (permissions, a missing directory). These depend on the file system and are not modelled.
- `convert_date_column` and `convert_column_type` (`to_datetime`, `astype`) are not modelled. Parsing and type conversion depend on pandas' parsers; dates are already `Day` values in the model.
- `DateRange`: the `to_datetime` conversion it performs is not modelled. It computes the minimum and maximum of the `date` cells as they are.
- `get_statistical_summary` (`describe`) and the `Data Types` entry of `get_basic_info` are not modelled. Both involve floating point and dtype inference.
- `basic_info` (a formatted string) and `print_unique_values` (which only prints) are not modelled; `print_unique_values` prints `unique()`, which, unlike `Uniques`, keeps NaN.
- `get_location_value_counts` is not modelled. `value_counts()` gives the number of rows per location, sorted by decreasing count, and no member computes it.
- `get_shape` and `get_column_names` are not modelled separately. They return the row count, the column count and the labels that `GetBasicInfo` states.
- `get_cleaned_data` is not modelled: with immutable frames it is the identity.
- Cells are integers, texts or dates. Floating point and the TypeError pandas raises when comparing values of different kinds are not modelled; the model orders kinds by rank instead.
- Duplicate column labels are not modelled. Every cleaning step requires distinct labels (`WellFormed`). The summaries accept any frame, but a row's cell map holds one cell per label, so a label listed twice still names a single cell.
- `FillMissingValues`: `fill_missing_values` fills through the chained `df[column].fillna(..., inplace=True)`. Under pandas' copy-on-write mode this would not change the frame. The model gives the effect the code has on the pandas versions the package targets, where the frame is filled.
- `TrendOverTime`: pandas reports a missing `date` and a missing measure together in one KeyError. The model reports `date` first.
- `TrendOverTime`: the `set_index('date')` step is modelled as (date, value) pairs.
- `TopLocations`: the order among tied maxima is not stated.
- `TopLocations`: a location whose measure is null in every row is never listed. This is what `nlargest` does in older pandas (such as 1.1.5, the oldest the package allows), which drops NaN before ranking. Newer pandas keeps such NaN maxima after the ranked ones when `top_n` exceeds their number, and the model does not describe that.
- `Highest`: inherits the `TopLocations` version dependence for locations whose measure is always null.
- `TopLocations`: it ranks whatever values it is given. The TypeError `nlargest` raises on a text measure is modelled by `Highest`, not here.
- `Highest`: a measure mixing numbers and dates is ranked by kind; pandas would hold it as an `object` column and raise TypeError. Such mixed columns fall under the cross-kind comparison left out above.
- `FilterByValue`: the key is a `Value`, so filtering by NaN cannot be written. In pandas `df[df[c] == np.nan]` matches no row, because NaN equals nothing. The same holds for the country and continent keys of `CountrySpecificSummary`, `ContinentSummary` and `TrendOverTime`.
- `ReplaceValues`: a NaN old or new value models `np.nan`. A literal Python `None` behaves differently, and neither case is modelled:
  - As `old_value`, `None` sends `Series.replace` down its `to_replace is None` branch. With `regex=False` that branch raises TypeError on a non-empty column.
  - As `new_value` in pandas 1.x, `None` switches `Series.replace` to its pad method, which copies the previous row's value instead.
- `SortData`: the order among tied keys is not stated, because `sort_values` sorts with quicksort, which is not stable.
- `Strip`, `MaxOf`, `MinOf`, `ColumnMax`, `ColumnMin` and `GroupMax` carry no contract of their own. What they compute is stated by the lemmas `StripTrims`/`StripUnique`, `MaxOfIsMax`, `MinOfIsMin`, `ColumnMaxIsMax`, `ColumnMinIsMin` and `GroupMaxIsColumnMax`.

=== FILE: cleaner.dfy ===
/** COVIDDataCleaner (covid_analysis/datacleaner.py). Each in-place cleaning
    step becomes a function from the frame before the step to the frame after
    it; a step that indexes `df[column]` fails with a KeyError when the column
    is missing. */
module DataCleaner {
  import opened Values
  import opened Seqs
  import opened Tables

  /** The default `fill_value` of `fill_missing_values`. */
  const DefaultFill: Value := Num(0)

  function FillCell(x: Record, c: string, v: Value): Record
  {
    if Cell(x, c).None? then Record(x.index, x.cells[c := Some(v)]) else x
  }

  lemma FillCellCells(x: Record, c: string, v: Value)
    ensures forall d :: Cell(FillCell(x, c, v), d) ==
                        (if d == c && Cell(x, d).None? then Some(v) else Cell(x, d))
  {
  }

  lemma FillRows(t: Table, c: string, v: Value, rows: seq<Record>)
    requires WellFormed(t) && c in t.columns
    requires |rows| == |t.rows| && forall i :: 0 <= i < |t.rows| ==> rows[i] == FillCell(t.rows[i], c, v)
    ensures forall x :: x in rows ==> Fits(t.columns, x)
    ensures forall i, d :: 0 <= i < |t.rows| ==>
              Cell(rows[i], d) == if d == c && Cell(t.rows[i], d).None? then Some(v) else Cell(t.rows[i], d)
  {
    forall x | x in rows ensures Fits(t.columns, x) {
      var i :| 0 <= i < |rows| && rows[i] == x;
      assert t.rows[i] in t.rows;
    }
    forall i | 0 <= i < |t.rows| { FillCellCells(t.rows[i], c, v); }
  }

  /** One iteration of the loop in `fill_missing_values`: `fillna` on column
      `c` when the frame has it, nothing otherwise. */
  function FillColumn(t: Table, c: string, v: Value): (r: Table)
    requires WellFormed(t)
    ensures WellFormed(r) && r.columns == t.columns && |r.rows| == |t.rows|
    ensures forall i :: 0 <= i < |t.rows| ==> r.rows[i].index == t.rows[i].index
    ensures forall i, d :: 0 <= i < |t.rows| ==>
              Cell(r.rows[i], d) ==
                if d == c && d in t.columns && Cell(t.rows[i], d).None? then Some(v)
                else Cell(t.rows[i], d)
    ensures c !in t.columns ==> r == t
  {
    if c !in t.columns then t
    else
      var rows := seq(|t.rows|, i requires 0 <= i < |t.rows| => FillCell(t.rows[i], c, v));
      FillRows(t, c, v, rows);
      Table(t.columns, rows)
  }

  /** `fill_missing_values(columns, fill_value)`: exactly the null cells of the
      listed columns that the frame has become `fill`; every other cell, the
      index, the row count and the columns stay as they were. */
  function FillMissingValues(t: Table, columns: seq<string>, fill: Value := DefaultFill): (r: Table)
    requires WellFormed(t)
    ensures WellFormed(r) && r.columns == t.columns && |r.rows| == |t.rows|
    ensures forall i :: 0 <= i < |t.rows| ==> r.rows[i].index == t.rows[i].index
    ensures forall i, d :: 0 <= i < |t.rows| ==>
              Cell(r.rows[i], d) ==
                if d in columns && d in t.columns && Cell(t.rows[i], d).None? then Some(fill)
                else Cell(t.rows[i], d)
    decreases |columns|
  {
    if |columns| == 0 then t
    else
      var filled := FillColumn(t, columns[0], fill);
      var r := FillMissingValues(filled, columns[1..], fill);
      assert forall i, d :: 0 <= i < |t.rows| ==>
               Cell(r.rows[i], d) ==
                 if d in columns && d in t.columns && Cell(t.rows[i], d).None? then Some(fill)
                 else Cell(t.rows[i], d) by {
        forall i, d | 0 <= i < |t.rows|
          ensures Cell(r.rows[i], d) ==
                    if d in columns && d in t.columns && Cell(t.rows[i], d).None? then Some(fill)
                    else Cell(t.rows[i], d)
        {
          assert d in columns <==> d == columns[0] || d in columns[1..];
          var before, mid := Cell(t.rows[i], d), Cell(filled.rows[i], d);
          assert mid == if d == columns[0] && d in t.columns && before.None? then Some(fill) else before;
          assert Cell(r.rows[i], d) == if d in columns[1..] && d in t.columns && mid.None? then Some(fill) else mid;
        }
      }
      r
  }

  /** Naming a column the frame lacks changes nothing. */
  lemma FillMissingIgnoresAbsent(t: Table, columns: seq<string>, c: string, fill: Value)
    requires WellFormed(t)
    requires c !in t.columns
    ensures FillMissingValues(t, columns + [c], fill) == FillMissingValues(t, columns, fill)
  {
    var a := FillMissingValues(t, columns + [c], fill);
    var b := FillMissingValues(t, columns, fill);
    forall i, d | 0 <= i < |a.rows| ensures Cell(a.rows[i], d) == Cell(b.rows[i], d) {
      if d in columns + [c] && d in t.columns {
        assert d in columns;
      }
    }
    TableExt(a, b);
  }

  /** Filling twice is filling once. */
  lemma FillMissingIdempotent(t: Table, columns: seq<string>, fill: Value)
    requires WellFormed(t)
    ensures FillMissingValues(FillMissingValues(t, columns, fill), columns, fill)
            == FillMissingValues(t, columns, fill)
  {
    var once := FillMissingValues(t, columns, fill);
    var twice := FillMissingValues(once, columns, fill);
    forall i, d | 0 <= i < |twice.rows| ensures Cell(twice.rows[i], d) == Cell(once.rows[i], d) {
      var orig := Cell(t.rows[i], d);
      assert Cell(once.rows[i], d) ==
        if d in columns && d in t.columns && orig.None? then Some(fill) else orig;
    }
    TableExt(twice, once);
  }

  function DropCells(x: Record, names: seq<string>): Record
  {
    Record(x.index, map k | k in x.cells && k !in names :: x.cells[k])
  }

  lemma DropCellsCells(x: Record, names: seq<string>)
    ensures DropCells(x, names).index == x.index
    ensures forall c :: Cell(DropCells(x, names), c) == if c in names then None else Cell(x, c)
  {
  }

  lemma DropCellsFits(x: Record, columns: seq<string>, names: seq<string>, kept: seq<string>)
    requires Fits(columns, x)
    requires forall c :: c in kept <==> c in columns && c !in names
    ensures Fits(kept, DropCells(x, names))
  {
  }

  /** `drop_unnecessary_columns(columns)` (`drop(..., errors='ignore')`): the
      remaining columns are the previous ones minus the listed names, in the
      previous order; absent names are ignored; rows, index and the remaining cells are
      untouched. */
  function DropUnnecessaryColumns(t: Table, names: seq<string>): (r: Table)
    requires WellFormed(t)
    ensures WellFormed(r) && |r.rows| == |t.rows|
    ensures forall c :: c in r.columns <==> c in t.columns && c !in names
    ensures IsSubsequence(r.columns, t.columns)
    ensures forall i :: 0 <= i < |t.rows| ==> r.rows[i].index == t.rows[i].index
    ensures forall i, c :: 0 <= i < |t.rows| ==>
              Cell(r.rows[i], c) == if c in names then None else Cell(t.rows[i], c)
  {
    var keep := (c: string) => c !in names;
    var columns := Filter(keep, t.columns);
    FilterSelects(keep, t.columns);
    FilterDistinct(keep, t.columns);
    var rows := seq(|t.rows|, i requires 0 <= i < |t.rows| => DropCells(t.rows[i], names));
    assert forall x :: x in rows ==> Fits(columns, x) by {
      forall x | x in rows ensures Fits(columns, x) {
        var i :| 0 <= i < |rows| && rows[i] == x;
        DropCellsFits(t.rows[i], t.columns, names, columns);
      }
    }
    forall i | 0 <= i < |t.rows| { DropCellsCells(t.rows[i], names); }
    Table(columns, rows)
  }

  /** Dropping the same names again changes nothing. */
  lemma DropColumnsIdempotent(t: Table, names: seq<string>)
    requires WellFormed(t)
    ensures DropUnnecessaryColumns(DropUnnecessaryColumns(t, names), names)
            == DropUnnecessaryColumns(t, names)
  {
    var once := DropUnnecessaryColumns(t, names);
    var twice := DropUnnecessaryColumns(once, names);
    FilterIdempotent((c: string) => c !in names, t.columns);
    TableExt(twice, once);
  }

  /** Every cell of the row, over the frame's columns, is null. */
  predicate AllNull(columns: seq<string>, x: Record)
  {
    forall i :: 0 <= i < |columns| ==> Cell(x, columns[i]).None?
  }

  /** `remove_rows_with_missing_values` (`dropna(how='all')`): exactly the rows
      whose every cell is null go; the others stay, in order, with their index. */
  function RemoveRowsWithMissingValues(t: Table): (r: Table)
    requires WellFormed(t)
    ensures WellFormed(r) && r.columns == t.columns
    ensures forall x :: x in r.rows <==> x in t.rows && !AllNull(t.columns, x)
    ensures forall x :: multiset(r.rows)[x] == if AllNull(t.columns, x) then 0 else multiset(t.rows)[x]
    ensures IsSubsequence(r.rows, t.rows)
  {
    var keep := (x: Record) => !AllNull(t.columns, x);
    FilterSelects(keep, t.rows);
    Table(t.columns, Filter(keep, t.rows))
  }

  /** `reset_index(drop=True)`: the rows are relabelled 0, 1, 2, ... in their
      current order; nothing else changes. */
  function ResetIndex(t: Table): (r: Table)
    requires WellFormed(t)
    ensures WellFormed(r) && r.columns == t.columns && |r.rows| == |t.rows|
    ensures forall i :: 0 <= i < |r.rows| ==> r.rows[i] == Record(i, t.rows[i].cells)
  {
    var rows := seq(|t.rows|, i requires 0 <= i < |t.rows| => Record(i, t.rows[i].cells));
    assert forall i :: 0 <= i < |t.rows| ==> t.rows[i] in t.rows;
    Table(t.columns, rows)
  }

  /** Relabelling rows that are already labelled 0, 1, 2, ... changes nothing. */
  lemma ResetIndexKeepsLabelled(t: Table)
    requires WellFormed(t)
    requires forall i :: 0 <= i < |t.rows| ==> t.rows[i].index == i
    ensures ResetIndex(t) == t
  {
    assert ResetIndex(t).rows == t.rows;
  }

  /** Resetting the index twice is resetting it once. */
  lemma ResetIndexIdempotent(t: Table)
    requires WellFormed(t)
    ensures ResetIndex(ResetIndex(t)) == ResetIndex(t)
  {
    ResetIndexKeepsLabelled(ResetIndex(t));
  }

  /** `remove_duplicate_rows` (`drop_duplicates()`): rows are compared on all
      their cells, not on the index; of each group of identical rows the first
      stays, the kept rows keep their relative order, and no distinct row
      content is lost. A frame without columns counts as empty to pandas, and
      `drop_duplicates` returns it whole, however many rows it has. */
  function RemoveDuplicateRows(t: Table): (r: Table)
    requires WellFormed(t)
    ensures WellFormed(r) && r.columns == t.columns
    ensures |t.columns| == 0 ==> r == t
    ensures KeySet(r.rows, CellsOf) == KeySet(t.rows, CellsOf)
    ensures |t.columns| > 0 ==> forall i, j :: 0 <= i < j < |r.rows| ==> r.rows[i].cells != r.rows[j].cells
    ensures |t.columns| > 0 ==> forall i :: 0 <= i < |r.rows| ==>
              r.rows[i].cells in KeySet(t.rows, CellsOf) &&
              r.rows[i] == t.rows[FirstIndex(t.rows, CellsOf, r.rows[i].cells)]
    ensures |t.columns| > 0 ==> forall i, j :: 0 <= i < j < |r.rows| ==>
              r.rows[i].cells in KeySet(t.rows, CellsOf) &&
              r.rows[j].cells in KeySet(t.rows, CellsOf) &&
              FirstIndex(t.rows, CellsOf, r.rows[i].cells) < FirstIndex(t.rows, CellsOf, r.rows[j].cells)
  {
    if |t.columns| == 0 then t
    else
      var rows := DedupBy(t.rows, CellsOf);
      DedupByKeySet(t.rows, CellsOf);
      DedupByDistinct(t.rows, CellsOf);
      DedupByFirst(t.rows, CellsOf);
      assert forall x :: x in rows ==> x in t.rows by {
        forall x | x in rows ensures x in t.rows {
          var i :| 0 <= i < |rows| && rows[i] == x;
          assert rows[i] == t.rows[FirstIndex(t.rows, CellsOf, rows[i].cells)];
        }
      }
      Table(t.columns, rows)
  }

  /** De-duplicating twice is de-duplicating once. */
  lemma RemoveDuplicatesIdempotent(t: Table)
    requires WellFormed(t)
    ensures RemoveDuplicateRows(RemoveDuplicateRows(t)) == RemoveDuplicateRows(t)
  {
    if |t.columns| > 0 {
      DedupByIdempotent(t.rows, CellsOf);
    }
  }

  function ReplaceCell(x: Record, c: string, oldValue: Option<Value>, newValue: Option<Value>): Record
  {
    if Cell(x, c) == oldValue then Record(x.index, x.cells[c := newValue]) else x
  }

  /** `replace_values(column, old_value, new_value)`: the cells of `column` equal
      to `oldValue` become `newValue`; every other cell, the index, the row count and the
      columns are unchanged. Either value may be `None` (NaN): `Series.replace`
      matches NaN with NaN, so replacing `None` fills the nulls, and replacing
      by `None` marks the matching cells as missing. */
  function ReplaceValues(t: Table, column: string, oldValue: Option<Value>, newValue: Option<Value>): (r: Result<Table>)
    requires WellFormed(t)
    ensures r.Ok? <==> column in t.columns
    ensures r.Err? ==> r.error == KeyError(column)
    ensures r.Ok? ==> WellFormed(r.value) && r.value.columns == t.columns && |r.value.rows| == |t.rows|
    ensures r.Ok? ==> forall i :: 0 <= i < |t.rows| ==> r.value.rows[i].index == t.rows[i].index
    ensures r.Ok? ==> forall i, d :: 0 <= i < |t.rows| ==>
              Cell(r.value.rows[i], d) ==
                if d == column && Cell(t.rows[i], d) == oldValue then newValue
                else Cell(t.rows[i], d)
  {
    if column !in t.columns then Err(KeyError(column))
    else
      var rows := seq(|t.rows|, i requires 0 <= i < |t.rows| => ReplaceCell(t.rows[i], column, oldValue, newValue));
      assert forall i :: 0 <= i < |t.rows| ==> t.rows[i] in t.rows;
      Ok(Table(t.columns, rows))
  }

  /** Replacing a value by itself changes nothing. */
  lemma ReplaceSameIsIdentity(t: Table, column: string, v: Option<Value>)
    requires WellFormed(t) && column in t.columns
    ensures ReplaceValues(t, column, v, v) == Ok(t)
  {
    TableExt(ReplaceValues(t, column, v, v).value, t);
  }

  /** After replacing `oldValue` by anything else, no row of `column` holds `oldValue`. */
  lemma ReplaceRemovesOld(t: Table, column: string, oldValue: Value, newValue: Option<Value>)
    requires WellFormed(t) && column in t.columns && newValue != Some(oldValue)
    ensures FilterByValue(ReplaceValues(t, column, Some(oldValue), newValue).value, column, oldValue) ==
            Ok(Table(t.columns, []))
  {
    var r := ReplaceValues(t, column, Some(oldValue), newValue).value;
    forall x | x in r.rows ensures Cell(x, column) != Some(oldValue) {
      var i :| 0 <= i < |r.rows| && r.rows[i] == x;
      assert Cell(r.rows[i], column) != Some(oldValue);
    }
    var f := FilterByValue(r, column, oldValue).value;
    assert forall x :: x !in f.rows;
  }

  /** Replacing NaN by a value in one column is the fill step of
      `fill_missing_values` for that column. */
  lemma ReplaceNullIsFill(t: Table, column: string, v: Value)
    requires WellFormed(t) && column in t.columns
    ensures ReplaceValues(t, column, None, Some(v)) == Ok(FillColumn(t, column, v))
  {
    TableExt(ReplaceValues(t, column, None, Some(v)).value, FillColumn(t, column, v));
  }

  /** Replacing a value by NaN and then dropping the rows missing that column
      removes exactly the rows that held the value or were already missing. */
  lemma ReplaceByNullThenDrop(t: Table, column: string, v: Value)
    requires WellFormed(t) && column in t.columns
    ensures var dropped := DropRowsWithMissingValuesInColumn(ReplaceValues(t, column, Some(v), None).value, column).value;
            forall x :: x in dropped.rows ==> Cell(x, column).Some? && Cell(x, column) != Some(v)
    ensures var dropped := DropRowsWithMissingValuesInColumn(ReplaceValues(t, column, Some(v), None).value, column).value;
            forall x :: x in t.rows && Cell(x, column).Some? && Cell(x, column) != Some(v) ==> x in dropped.rows
    ensures var dropped := DropRowsWithMissingValuesInColumn(ReplaceValues(t, column, Some(v), None).value, column).value;
            forall x :: x in dropped.rows ==> x in t.rows
  {
    var r := ReplaceValues(t, column, Some(v), None).value;
    forall x | x in r.rows ensures Cell(x, column) != Some(v) {
      var i :| 0 <= i < |r.rows| && r.rows[i] == x;
      assert Cell(r.rows[i], column) != Some(v);
    }
    forall x | x in t.rows && Cell(x, column).Some? && Cell(x, column) != Some(v) ensures x in r.rows {
      var i :| 0 <= i < |t.rows| && t.rows[i] == x;
      assert r.rows[i] == ReplaceCell(x, column, Some(v), None) == x;
    }
    forall x | x in r.rows && Cell(x, column).Some? ensures x in t.rows {
      var i :| 0 <= i < |r.rows| && r.rows[i] == x;
      assert r.rows[i] == ReplaceCell(t.rows[i], column, Some(v), None) == t.rows[i];
    }
  }

  /** `filter_by_value(column, value)` (`df[df[column] == value]`): a new frame
      holding exactly the rows whose `column` cell equals `value`, in order,
      with their index; the frame it reads is a value and is not changed. */
  function FilterByValue(t: Table, column: string, value: Value): (r: Result<Table>)
    requires WellFormed(t)
    ensures r.Ok? <==> column in t.columns
    ensures r.Err? ==> r.error == KeyError(column)
    ensures r.Ok? ==> WellFormed(r.value) && r.value.columns == t.columns
    ensures r.Ok? ==> forall x :: x in r.value.rows <==> x in t.rows && Cell(x, column) == Some(value)
    ensures r.Ok? ==> forall x :: multiset(r.value.rows)[x] ==
                        (if Cell(x, column) == Some(value) then multiset(t.rows)[x] else 0)
    ensures r.Ok? ==> IsSubsequence(r.value.rows, t.rows)
  {
    if column !in t.columns then Err(KeyError(column))
    else
      FilterSelects((x: Record) => Cell(x, column) == Some(value), t.rows);
      Ok(Table(t.columns, Matching(t.rows, column, value)))
  }

  /** The order `sort_values(by=c, ascending=asc)` puts rows in: by the cell in
      `c`, ascending or descending, with null cells last either way. */
  predicate KeyLe(a: Option<Value>, b: Option<Value>, ascending: bool)
  {
    match (a, b)
    case (None, _) => b.None?
    case (Some(_), None) => true
    case (Some(x), Some(y)) => if ascending then Le(x, y) else Le(y, x)
  }

  function RowOrder(c: string, ascending: bool): (Record, Record) -> bool
  {
    (x: Record, y: Record) => KeyLe(Cell(x, c), Cell(y, c), ascending)
  }

  lemma RowOrderIsTotalPreorder(c: string, ascending: bool)
    ensures TotalPreorder(RowOrder(c, ascending))
  {
    var le := RowOrder(c, ascending);
    forall x, y ensures le(x, y) || le(y, x) {
      KeyLeTotal(Cell(x, c), Cell(y, c), ascending);
    }
    forall x, y, z | le(x, y) && le(y, z) ensures le(x, z) {
      KeyLeTrans(Cell(x, c), Cell(y, c), Cell(z, c), ascending);
    }
  }

  lemma KeyLeTotal(a: Option<Value>, b: Option<Value>, ascending: bool)
    ensures KeyLe(a, b, ascending) || KeyLe(b, a, ascending)
  {
    LeTotalOrder();
  }

  lemma KeyLeTrans(a: Option<Value>, b: Option<Value>, c: Option<Value>, ascending: bool)
    requires KeyLe(a, b, ascending) && KeyLe(b, c, ascending)
    ensures KeyLe(a, c, ascending)
  {
    LeTotalOrder();
  }

  /** Rows sorted by `RowOrder(c, ascending)` have their nulls in `c` last and
      their other cells in `c` in the requested direction. */
  lemma SortedRowsByKey(rows: seq<Record>, c: string, ascending: bool)
    requires SortedBy(rows, RowOrder(c, ascending))
    ensures forall i, j :: 0 <= i < j < |rows| && Cell(rows[i], c).None? ==> Cell(rows[j], c).None?
    ensures forall i, j :: 0 <= i < j < |rows| && Cell(rows[i], c).Some? && Cell(rows[j], c).Some? ==>
              (if ascending then Le(Cell(rows[i], c).value, Cell(rows[j], c).value)
               else Le(Cell(rows[j], c).value, Cell(rows[i], c).value))
  {
    forall i, j | 0 <= i < j < |rows| ensures KeyLe(Cell(rows[i], c), Cell(rows[j], c), ascending) {
      assert RowOrder(c, ascending)(rows[i], rows[j]);
    }
  }

  /** `sort_data(column, ascending)`: a permutation of the rows ordered by
      `column`, ascending or descending, nulls last. `sort_values` sorts with
      quicksort, so no order among rows with equal keys is promised. */
  function SortData(t: Table, column: string, ascending: bool := true): (r: Result<Table>)
    requires WellFormed(t)
    ensures r.Ok? <==> column in t.columns
    ensures r.Err? ==> r.error == KeyError(column)
    ensures r.Ok? ==> WellFormed(r.value) && r.value.columns == t.columns
    ensures r.Ok? ==> multiset(r.value.rows) == multiset(t.rows)
    ensures r.Ok? ==> forall i, j :: 0 <= i < j < |r.value.rows| && Cell(r.value.rows[i], column).None? ==>
                        Cell(r.value.rows[j], column).None?
    ensures r.Ok? ==> forall i, j :: (0 <= i < j < |r.value.rows| &&
                        Cell(r.value.rows[i], column).Some? && Cell(r.value.rows[j], column).Some?) ==>
                        (if ascending then Le(Cell(r.value.rows[i], column).value, Cell(r.value.rows[j], column).value)
                         else Le(Cell(r.value.rows[j], column).value, Cell(r.value.rows[i], column).value))
  {
    if column !in t.columns then Err(KeyError(column))
    else
      RowOrderIsTotalPreorder(column, ascending);
      var rows := InsertionSort(t.rows, RowOrder(column, ascending));
      SortedRowsByKey(rows, column, ascending);
      PermutationMembers(rows, t.rows);
      Ok(Table(t.columns, rows))
  }

  /** `drop_rows_with_missing_values_in_column(column)`
      (`dropna(subset=[column])`): exactly the rows null in `column` go. */
  function DropRowsWithMissingValuesInColumn(t: Table, column: string): (r: Result<Table>)
    requires WellFormed(t)
    ensures r.Ok? <==> column in t.columns
    ensures r.Err? ==> r.error == KeyError(column)
    ensures r.Ok? ==> WellFormed(r.value) && r.value.columns == t.columns
    ensures r.Ok? ==> forall x :: x in r.value.rows <==> x in t.rows && Cell(x, column).Some?
    ensures r.Ok? ==> forall x :: multiset(r.value.rows)[x] ==
                        (if Cell(x, column).Some? then multiset(t.rows)[x] else 0)
    ensures r.Ok? ==> IsSubsequence(r.value.rows, t.rows)
  {
    if column !in t.columns then Err(KeyError(column))
    else
      var keep := (x: Record) => Cell(x, column).Some?;
      FilterSelects(keep, t.rows);
      Ok(Table(t.columns, Filter(keep, t.rows)))
  }
}

=== FILE: scrape.dfy ===
/** The pure parts of covid_analysis/scrape.py: whitespace trimming, the row
    window and cell projection of `fetch_data`, the counters of
    `get_global_stats`, and the decisions of `download_covid_data`. Fetching
    pages, parsing HTML and writing files are outside the model: the parsed
    cell texts and the HTTP response arrive as parameters. */
module Scraper {
  import opened Values
  import opened Seqs
  import opened Tables

  newtype byte = x: int | 0 <= x < 256

  /** The column labels of the frame `fetch_data` builds. */
  const FieldList: seq<string> := ["Name", "Total Cases", "New Cases", "Total Deaths", "New Deaths",
    "Total Recovered", "New Recovered", "Active Cases", "Serious Cases", "Total Tests", "Population"]

  /** For label `FieldList[k]`, the `<td>` position it is read from: cells 1
      to 9, then 12, then 14. */
  function SourceCell(k: nat): nat
  {
    if k < 9 then k + 1 else if k == 9 then 12 else 14
  }

  /** The `<tr>` window `[8:229]` that `fetch_data` keeps. */
  const WindowStart := 8
  const WindowStop := 229

  /** Python's `str.isspace` for one character, by code point: the
      characters `str.strip()` removes. */
  predicate IsSpace(ch: char)
  {
    var c := ch as int;
    || 0x09 <= c <= 0x0D || 0x1C <= c <= 0x20 || c == 0x85 || c == 0xA0 || c == 0x1680
    || 0x2000 <= c <= 0x200A || c == 0x2028 || c == 0x2029 || c == 0x202F || c == 0x205F || c == 0x3000
  }

  /** `s` with only whitespace outside the stretch `i..j`, which is empty or
      starts and ends with a non-whitespace character. */
  ghost predicate TrimmedAt(s: string, i: int, j: int)
  {
    && 0 <= i <= j <= |s|
    && (forall k :: 0 <= k < i ==> IsSpace(s[k]))
    && (forall k :: j <= k < |s| ==> IsSpace(s[k]))
    && (i < j ==> !IsSpace(s[i]) && !IsSpace(s[j - 1]))
  }

  /** Python's `str.strip()`: drop whitespace from the front, then from the back. */
  function Strip(s: string): string
    decreases |s|
  {
    if |s| > 0 && IsSpace(s[0]) then Strip(s[1..])
    else if |s| > 0 && IsSpace(s[|s| - 1]) then Strip(s[..|s| - 1])
    else s
  }

  /** What `strip` returns is a stretch of `s` with only whitespace around it,
      and it neither starts nor ends with whitespace. */
  lemma {:induction false} StripTrims(s: string)
    ensures exists i, j :: TrimmedAt(s, i, j) && Strip(s) == s[i..j]
    decreases |s|
  {
    if |s| > 0 && IsSpace(s[0]) {
      StripTrims(s[1..]);
      var i, j :| TrimmedAt(s[1..], i, j) && Strip(s[1..]) == s[1..][i..j];
      StripTrimsFront(s, i, j);
    } else if |s| > 0 && IsSpace(s[|s| - 1]) {
      StripTrims(s[..|s| - 1]);
      var i, j :| TrimmedAt(s[..|s| - 1], i, j) && Strip(s[..|s| - 1]) == s[..|s| - 1][i..j];
      StripTrimsBack(s, i, j);
    } else {
      assert TrimmedAt(s, 0, |s|);
      assert s == s[0..|s|];
    }
  }

  lemma StripTrimsFront(s: string, i: int, j: int)
    requires |s| > 0 && IsSpace(s[0])
    requires TrimmedAt(s[1..], i, j) && Strip(s[1..]) == s[1..][i..j]
    ensures TrimmedAt(s, 1 + i, 1 + j) && Strip(s) == s[1 + i..1 + j]
  {
    TrimmedAfterPrefix([s[0]], s[1..], i, j);
    assert [s[0]] + s[1..] == s;
  }

  lemma StripTrimsBack(s: string, i: int, j: int)
    requires |s| > 0 && !IsSpace(s[0]) && IsSpace(s[|s| - 1])
    requires TrimmedAt(s[..|s| - 1], i, j) && Strip(s[..|s| - 1]) == s[..|s| - 1][i..j]
    ensures TrimmedAt(s, i, j) && Strip(s) == s[i..j]
  {
    var init, last := s[..|s| - 1], [s[|s| - 1]];
    assert Strip(s) == Strip(init);
    TrimmedBeforeSuffix(init, last, i, j);
    assert init + last == s;
  }

  /** Only one stretch of `s` is trimmed that way: together with `StripTrims`
      this characterises `strip` completely. */
  lemma {:induction false} StripUnique(s: string, i: int, j: int)
    requires TrimmedAt(s, i, j)
    ensures Strip(s) == s[i..j]
    decreases |s|
  {
    if |s| > 0 && IsSpace(s[0]) {
      var i', j' := if i == 0 then 0 else i - 1, if i == 0 then 0 else j - 1;
      assert forall k :: 1 <= k < |s| ==> s[k] == s[1..][k - 1];
      assert TrimmedAt(s[1..], i', j');
      StripUnique(s[1..], i', j');
      assert s[1..][i'..j'] == s[i..j];
    } else if |s| > 0 && IsSpace(s[|s| - 1]) {
      var init := s[..|s| - 1];
      var i', j' := if j == |s| then |s| - 1 else i, if j == |s| then |s| - 1 else j;
      assert TrimmedAt(init, i', j');
      StripUnique(init, i', j');
      assert init[i'..j'] == s[i..j];
    } else if |s| > 0 {
      assert i == 0 && j == |s|;
      assert s[i..j] == s;
    }
  }

  /** Stripping twice is stripping once. */
  lemma StripIdempotent(s: string)
    ensures Strip(Strip(s)) == Strip(s)
  {
    StripTrims(s);
    var i, j :| TrimmedAt(s, i, j) && Strip(s) == s[i..j];
    var r := s[i..j];
    assert TrimmedAt(r, 0, |r|);
    assert r[0..|r|] == r;
    StripUnique(r, 0, |r|);
  }

  /** Whitespace before `s` moves its trimmed stretch along. */
  lemma TrimmedAfterPrefix(pre: string, s: string, i: int, j: int)
    requires forall k :: 0 <= k < |pre| ==> IsSpace(pre[k])
    requires TrimmedAt(s, i, j)
    ensures TrimmedAt(pre + s, |pre| + i, |pre| + j)
    ensures (pre + s)[|pre| + i..|pre| + j] == s[i..j]
  {
    var whole, n := pre + s, |pre|;
    forall k | 0 <= k < n + i ensures IsSpace(whole[k]) {
      if k >= n { assert whole[k] == s[k - n]; }
    }
    forall k | n + j <= k < |whole| ensures IsSpace(whole[k]) {
      assert whole[k] == s[k - n];
    }
    if i < j {
      assert whole[n + i] == s[i] && whole[n + j - 1] == s[j - 1];
    }
    assert whole[n..] == s;
  }

  /** Whitespace after `s` leaves its trimmed stretch where it is. */
  lemma TrimmedBeforeSuffix(s: string, post: string, i: int, j: int)
    requires forall k :: 0 <= k < |post| ==> IsSpace(post[k])
    requires TrimmedAt(s, i, j)
    ensures TrimmedAt(s + post, i, j)
    ensures (s + post)[i..j] == s[i..j]
  {
    var whole := s + post;
    forall k | j <= k < |whole| ensures IsSpace(whole[k]) {
      if k >= |s| { assert whole[k] == post[k - |s|]; }
    }
    assert whole[..|s|] == s;
  }

  /** Surrounding text with whitespace does not change what `strip` returns. */
  lemma StripPadded(pre: string, s: string, post: string)
    requires forall k :: 0 <= k < |pre| ==> IsSpace(pre[k])
    requires forall k :: 0 <= k < |post| ==> IsSpace(post[k])
    ensures Strip(pre + s + post) == Strip(s)
  {
    StripTrims(s);
    var i, j :| TrimmedAt(s, i, j) && Strip(s) == s[i..j];
    TrimmedBeforeSuffix(s, post, i, j);
    TrimmedAfterPrefix(pre, s + post, i, j);
    assert pre + s + post == pre + (s + post);
    StripUnique(pre + (s + post), |pre| + i, |pre| + j);
  }

  /** Python's `s[start:stop]` for non-negative bounds: both bounds are
      clamped to the length, and a start at or past the stop gives nothing. */
  function Slice<T>(s: seq<T>, start: nat, stop: nat): (r: seq<T>)
    ensures |r| == if start < Min(stop, |s|) then Min(stop, |s|) - start else 0
    ensures |r| > 0 ==> start + |r| <= |s|
    ensures forall k :: 0 <= k < |r| ==> r[k] == s[start + k]
  {
    var hi := Min(stop, |s|);
    var lo := Min(start, hi);
    s[lo..hi]
  }

  /** The `<tr>` rows `fetch_data` reads: at most 221 of them, none when the
      table body has 8 rows or fewer, starting at the ninth row. */
  function RowWindow<T>(rows: seq<T>): (r: seq<T>)
    ensures |r| <= WindowStop - WindowStart
    ensures |r| == 0 <==> |rows| <= WindowStart
    ensures |rows| >= WindowStop ==> |r| == WindowStop - WindowStart
    ensures WindowStart + |r| <= |rows| || r == []
    ensures forall k :: 0 <= k < |r| ==> r[k] == rows[WindowStart + k]
  {
    Slice(rows, WindowStart, WindowStop)
  }

  /** One row of `fetch_data`: strip every `<td>` text, then keep cells 1 to 9,
      12 and 14. A row with fewer than 15 cells raises IndexError. */
  function ProjectRow(cells: seq<string>): (r: Result<seq<string>>)
    ensures r.Ok? <==> |cells| >= 15
    ensures r.Err? ==> r.error == IndexError
    ensures r.Ok? ==> |r.value| == |FieldList|
    ensures r.Ok? ==> forall k :: 0 <= k < |FieldList| ==> r.value[k] == Strip(cells[SourceCell(k)])
  {
    var cols := seq(|cells|, i requires 0 <= i < |cells| => Strip(cells[i]));
    if |cols| <= 12 then Err(IndexError)
    else if |cols| <= 14 then Err(IndexError)
    else Ok(cols[1..10] + [cols[12]] + [cols[14]])
  }

  /** The projected rows in order; the first short row raises IndexError. */
  function ExtractRecords(rows: seq<seq<string>>): (r: Result<seq<seq<string>>>)
    ensures r.Ok? <==> forall i :: 0 <= i < |rows| ==> |rows[i]| >= 15
    ensures r.Err? ==> r.error == IndexError
    ensures r.Ok? ==> |r.value| == |rows|
    ensures r.Ok? ==> forall i :: 0 <= i < |rows| ==> ProjectRow(rows[i]) == Ok(r.value[i])
    decreases |rows|
  {
    if |rows| == 0 then Ok([])
    else
      var head := ProjectRow(rows[0]);
      if head.Err? then Err(head.error)
      else
        var rest := ExtractRecords(rows[1..]);
        assert forall i :: 1 <= i < |rows| ==> rows[i] == rows[1..][i - 1];
        if rest.Err? then rest
        else Ok([head.value] + rest.value)
  }

  lemma FieldListDistinct()
    ensures Distinct(FieldList)
  {
  }

  /** A row's cells: label `names[k]` holds the text `values[k]`. */
  function CellsFrom(names: seq<string>, values: seq<string>): (m: Row)
    requires |names| == |values| && Distinct(names)
    ensures m.Keys == ColumnSet(names)
    ensures forall k :: 0 <= k < |names| ==> m[names[k]] == Some(Text(values[k]))
    decreases |names|
  {
    if |names| == 0 then map[]
    else
      var rest := CellsFrom(names[1..], values[1..]);
      assert forall k :: 1 <= k < |names| ==> names[k] == names[1..][k - 1] && names[k] != names[0];
      rest[names[0] := Some(Text(values[0]))]
  }

  /** `pd.DataFrame(data, columns=names)`: one row per record, labelled
      0, 1, ..., holding record `i`'s `k`-th text under `names[k]`. */
  function BuildFrame(names: seq<string>, data: seq<seq<string>>): (t: Table)
    requires Distinct(names)
    requires forall i :: 0 <= i < |data| ==> |data[i]| == |names|
    ensures WellFormed(t) && t.columns == names && |t.rows| == |data|
    ensures forall i :: 0 <= i < |data| ==> t.rows[i].index == i
    ensures forall i, k :: 0 <= i < |data| && 0 <= k < |names| ==>
              Cell(t.rows[i], names[k]) == Some(Text(data[i][k]))
  {
    var records := seq(|data|, i requires 0 <= i < |data| => Record(i, CellsFrom(names, data[i])));
    assert forall x :: x in records ==> Fits(names, x);
    Table(names, records)
  }

  /** `fetch_data` over the texts of the `<td>` cells of every `<tr>` of the
      table body: a frame with the `FieldList` labels and one row per row of
      the window (row `i` is `rows[WindowStart + i]`, see `RowWindow`),
      labelled 0, 1, ..., whose cell under `FieldList[k]` is the stripped text
      of `<td>` number `SourceCell(k)` of that row. */
  function FetchData(rows: seq<seq<string>>): (r: Result<Table>)
    ensures r.Ok? <==> forall k :: 0 <= k < |RowWindow(rows)| ==> |RowWindow(rows)[k]| >= 15
    ensures r.Err? ==> r.error == IndexError
    ensures r.Ok? ==> WellFormed(r.value) && r.value.columns == FieldList
    ensures r.Ok? ==> |r.value.rows| == |RowWindow(rows)|
    ensures r.Ok? ==> forall i :: 0 <= i < |r.value.rows| ==> r.value.rows[i].index == i
    ensures r.Ok? ==> forall i, k :: 0 <= i < |r.value.rows| && 0 <= k < |FieldList| ==>
              Cell(r.value.rows[i], FieldList[k]) == Some(Text(Strip(RowWindow(rows)[i][SourceCell(k)])))
  {
    var window := RowWindow(rows);
    var data := ExtractRecords(window);
    if data.Err? then Err(data.error)
    else
      FieldListDistinct();
      var t := BuildFrame(FieldList, data.value);
      FetchedCells(window, data.value, t);
      Ok(t)
  }

  lemma FetchedCells(window: seq<seq<string>>, data: seq<seq<string>>, t: Table)
    requires ExtractRecords(window) == Ok(data)
    requires |t.rows| == |data|
    requires forall i, k :: 0 <= i < |data| && 0 <= k < |FieldList| ==>
               Cell(t.rows[i], FieldList[k]) == Some(Text(data[i][k]))
    ensures forall i, k :: 0 <= i < |t.rows| && 0 <= k < |FieldList| ==>
              Cell(t.rows[i], FieldList[k]) == Some(Text(Strip(window[i][SourceCell(k)])))
  {
    forall i, k | 0 <= i < |t.rows| && 0 <= k < |FieldList|
      ensures Cell(t.rows[i], FieldList[k]) == Some(Text(Strip(window[i][SourceCell(k)])))
    {
      assert ProjectRow(window[i]) == Ok(data[i]);
      assert data[i][k] == Strip(window[i][SourceCell(k)]);
    }
  }

  /** The summary counters `get_global_stats` reads. */
  const StatLabels: seq<string> := ["Total Cases", "Total Deaths", "Total Recovered"]

  /** `get_global_stats` over the texts of the `maincounter-number` divs: the
      first three, stripped, under their labels; fewer than three raise
      IndexError. */
  function GetGlobalStats(counters: seq<string>): (r: Result<map<string, string>>)
    ensures r.Ok? <==> |counters| >= 3
    ensures r.Err? ==> r.error == IndexError
    ensures r.Ok? ==> r.value.Keys == ColumnSet(StatLabels)
    ensures r.Ok? ==> forall k :: 0 <= k < |StatLabels| ==> r.value[StatLabels[k]] == Strip(counters[k])
  {
    if |counters| < 3 then Err(IndexError)
    else Ok(map[StatLabels[0] := Strip(counters[0]),
                StatLabels[1] := Strip(counters[1]),
                StatLabels[2] := Strip(counters[2])])
  }

  /** The position of the last slash among the first `n` characters of
      `url`, or -1 when there is none. */
  function LastSlash(url: string, n: nat): (k: int)
    requires n <= |url|
    ensures -1 <= k < n
    ensures k >= 0 ==> url[k] == '/'
    ensures forall j :: k < j < n ==> url[j] != '/'
    decreases n
  {
    if n == 0 then -1 else if url[n - 1] == '/' then n - 1 else LastSlash(url, n - 1)
  }

  /** `url.split('/')[-1]`: the text after the last slash, or all of `url`
      when it has none. */
  function LastSegment(url: string): (r: string)
    ensures '/' !in r
    ensures |r| <= |url| && r == url[|url| - |r|..]
    ensures |r| < |url| ==> url[|url| - |r| - 1] == '/'
  {
    url[LastSlash(url, |url|) + 1..]
  }

  /** A name appended to a path with a slash is the last segment of the
      result: the segment cannot reach back past the slash, and cannot stop
      short of it either, since the name holds no slash. */
  lemma LastSegmentOfJoin(path: string, name: string)
    requires '/' !in name
    ensures LastSegment(path + "/" + name) == name
  {
    var url := path + "/" + name;
    var r := LastSegment(url);
    assert url[|path|] == '/';
    assert forall j :: |path| < j < |url| ==> url[j] == name[j - |path| - 1];
    assert |r| == |name|;
    assert r == url[|path| + 1..] == name;
  }

  /** The HTTP response `download_covid_data` receives. */
  datatype Response = Response(statusCode: int, content: seq<byte>)

  /** What `download_covid_data` did: its return value and the file it wrote, if any. */
  datatype Download = Download(succeeded: bool, written: Option<(string, seq<byte>)>)

  /** The file name: the one given when it is non-empty (Python's
      `not output_filename` holds for both `None` and `""`), else the last
      segment of the URL. */
  function OutputName(url: string, outputFilename: Option<string>): (name: string)
    ensures outputFilename.Some? && outputFilename.value != "" ==> name == outputFilename.value
    ensures outputFilename.None? || outputFilename.value == "" ==> name == LastSegment(url) && '/' !in name
  {
    if outputFilename.None? || outputFilename.value == "" then LastSegment(url) else outputFilename.value
  }

  /** `download_covid_data`: on status 200 the body is written, unchanged,
      to the chosen file and the call returns True; on any other status
      nothing is written and it returns False. A URL ending in a slash with no
      file name given leaves the name empty, and opening it raises
      FileNotFoundError. */
  function DownloadCovidData(url: string, response: Response, outputFilename: Option<string>): (r: Result<Download>)
    ensures response.statusCode != 200 ==> r == Ok(Download(false, None))
    ensures r.Err? <==> response.statusCode == 200 && OutputName(url, outputFilename) == ""
    ensures r.Err? ==> r.error == FileNotFoundError("")
    ensures response.statusCode == 200 && OutputName(url, outputFilename) != "" ==>
              r == Ok(Download(true, Some((OutputName(url, outputFilename), response.content))))
    ensures r.Ok? && r.value.succeeded <==> r.Ok? && r.value.written.Some?
    ensures r.Ok? && r.value.succeeded ==>
              response.statusCode == 200 &&
              r.value.written == Some((OutputName(url, outputFilename), response.content)) &&
              r.value.written.value.0 != ""
  {
    if response.statusCode == 200 then
      var name := OutputName(url, outputFilename);
      if name == "" then Err(FileNotFoundError(name))
      else Ok(Download(true, Some((name, response.content))))
    else Ok(Download(false, None))
  }

  /** Downloading from `.../name` with no file name given saves to `name`. */
  lemma DownloadSavesUnderUrlName(path: string, name: string, content: seq<byte>)
    requires '/' !in name && name != ""
    ensures DownloadCovidData(path + "/" + name, Response(200, content), None) ==
              Ok(Download(true, Some((name, content))))
  {
    LastSegmentOfJoin(path, name);
  }
}

=== FILE: seqs.dfy ===
/** Sequence combinators with the meaning the pandas calls of the model rely
    on: boolean-mask selection, sorting, first-occurrence de-duplication. */
module Seqs {

  predicate Distinct<T(==)>(s: seq<T>)
  {
    forall i, j :: 0 <= i < j < |s| ==> s[i] != s[j]
  }

  /** `idx` lists, in increasing order, positions of `b` whose elements spell `a`. */
  ghost predicate Embeds<T>(idx: seq<int>, a: seq<T>, b: seq<T>)
  {
    && |idx| == |a|
    && (forall k :: 0 <= k < |idx| ==> 0 <= idx[k] < |b| && a[k] == b[idx[k]])
    && (forall k, l :: 0 <= k < l < |idx| ==> idx[k] < idx[l])
  }

  /** `a` is an order-preserving subsequence of `b`. */
  ghost predicate IsSubsequence<T>(a: seq<T>, b: seq<T>)
  {
    exists idx :: Embeds(idx, a, b)
  }

  /** The elements of `s` that satisfy `p`, in their original order
      (pandas' `df[mask]`). */
  function Filter<T(!new)>(p: T -> bool, s: seq<T>): (r: seq<T>)
    ensures |r| <= |s|
    ensures forall x :: x in r <==> x in s && p(x)
    decreases |s|
  {
    if |s| == 0 then []
    else if p(s[0]) then [s[0]] + Filter(p, s[1..])
    else Filter(p, s[1..])
  }

  /** An embedding into the tail of `b` is, one position further on, an
      embedding into `b` that avoids position 0. */
  lemma EmbedsInTail<T>(idx: seq<int>, a: seq<T>, b: seq<T>) returns (moved: seq<int>)
    requires |b| > 0 && Embeds(idx, a, b[1..])
    ensures Embeds(moved, a, b)
    ensures forall k :: 0 <= k < |moved| ==> moved[k] > 0
  {
    moved := seq(|idx|, k requires 0 <= k < |idx| => idx[k] + 1);
    forall k | 0 <= k < |idx| ensures a[k] == b[moved[k]] {
      assert b[moved[k]] == b[1..][idx[k]];
    }
  }

  /** Position 0 can be put in front of an embedding that avoids it. */
  lemma EmbedsCons<T>(idx: seq<int>, a: seq<T>, b: seq<T>)
    requires |b| > 0 && Embeds(idx, a, b)
    requires forall k :: 0 <= k < |idx| ==> idx[k] > 0
    ensures Embeds([0] + idx, [b[0]] + a, b)
  {
    var idx', a' := [0] + idx, [b[0]] + a;
    forall k | 1 <= k < |idx'| ensures idx'[k] == idx[k - 1] && a'[k] == a[k - 1] { }
  }

  /** The positions of the elements `Filter` keeps spell its result, in order. */
  lemma {:induction false} FilterEmbeds<T(!new)>(p: T -> bool, s: seq<T>) returns (idx: seq<int>)
    ensures Embeds(idx, Filter(p, s), s)
    decreases |s|
  {
    if |s| == 0 {
      idx := [];
    } else {
      var rest := FilterEmbeds(p, s[1..]);
      var moved := EmbedsInTail(rest, Filter(p, s[1..]), s);
      if p(s[0]) {
        EmbedsCons(moved, Filter(p, s[1..]), s);
        idx := [0] + moved;
      } else {
        idx := moved;
      }
    }
  }

  /** The selection keeps exactly the elements satisfying `p`, each with its
      original multiplicity, and in their original order. */
  lemma FilterSelects<T(!new)>(p: T -> bool, s: seq<T>)
    ensures IsSubsequence(Filter(p, s), s)
    ensures forall x :: multiset(Filter(p, s))[x] == if p(x) then multiset(s)[x] else 0
  {
    var idx := FilterEmbeds(p, s);
    FilterCounts(p, s);
  }

  lemma {:induction false} FilterCounts<T(!new)>(p: T -> bool, s: seq<T>)
    ensures forall x :: multiset(Filter(p, s))[x] == if p(x) then multiset(s)[x] else 0
    decreases |s|
  {
    if |s| > 0 {
      FilterCounts(p, s[1..]);
      assert s == [s[0]] + s[1..];
    }
  }

  /** Selecting twice with the same mask selects nothing more. */
  lemma {:induction false} FilterIdempotent<T(!new)>(p: T -> bool, s: seq<T>)
    ensures Filter(p, Filter(p, s)) == Filter(p, s)
    decreases |s|
  {
    if |s| > 0 {
      FilterIdempotent(p, s[1..]);
    }
  }

  /** Selection keeps distinctness. */
  lemma {:induction false} FilterDistinct<T(!new)>(p: T -> bool, s: seq<T>)
    requires Distinct(s)
    ensures Distinct(Filter(p, s))
    decreases |s|
  {
    if |s| > 0 {
      assert Distinct(s[1..]);
      FilterDistinct(p, s[1..]);
      assert s[0] !in s[1..];
    }
  }

  /** A mask and its complement split the sequence. */
  lemma {:induction false} FilterComplement<T(!new)>(p: T -> bool, q: T -> bool, s: seq<T>)
    requires forall x :: q(x) == !p(x)
    ensures |Filter(p, s)| + |Filter(q, s)| == |s|
    decreases |s|
  {
    if |s| > 0 {
      FilterComplement(p, q, s[1..]);
    }
  }

  ghost predicate TotalPreorder<T(!new)>(le: (T, T) -> bool)
  {
    && (forall a, b :: le(a, b) || le(b, a))
    && (forall a, b, c :: le(a, b) && le(b, c) ==> le(a, c))
  }

  predicate SortedBy<T>(s: seq<T>, le: (T, T) -> bool)
  {
    forall i, j :: 0 <= i < j < |s| ==> le(s[i], s[j])
  }

  /** Puts `x` in front of the first element it is `le` to. */
  function Insert<T(!new)>(x: T, s: seq<T>, le: (T, T) -> bool): (r: seq<T>)
    requires TotalPreorder(le)
    requires SortedBy(s, le)
    ensures SortedBy(r, le)
    ensures multiset(r) == multiset(s) + multiset{x}
    decreases |s|
  {
    if |s| == 0 then [x]
    else if le(x, s[0]) then
      assert forall j :: 0 <= j < |s| ==> le(x, s[j]);
      ConsSorted(x, s, le);
      [x] + s
    else
      var rest := Insert(x, s[1..], le);
      assert forall z :: z in s[1..] ==> le(s[0], z) by {
        forall z | z in s[1..] ensures le(s[0], z) {
          var k :| 0 <= k < |s[1..]| && s[1..][k] == z;
          assert z == s[k + 1];
        }
      }
      assert le(s[0], x);
      BoundsPermutation(s[0], x, s[1..], rest, le);
      ConsSorted(s[0], rest, le);
      assert s == [s[0]] + s[1..];
      [s[0]] + rest
  }

  /** An element `le` to every element of a sorted sequence can go in front of it. */
  lemma ConsSorted<T>(y: T, s: seq<T>, le: (T, T) -> bool)
    requires SortedBy(s, le)
    requires forall j :: 0 <= j < |s| ==> le(y, s[j])
    ensures SortedBy([y] + s, le)
  {
    var r := [y] + s;
    forall i, j | 0 <= i < j < |r| ensures le(r[i], r[j]) {
      assert r[j] == s[j - 1];
      if i > 0 { assert r[i] == s[i - 1]; }
    }
  }

  /** A lower bound of `x` and of `pool` bounds every permutation of them. */
  lemma BoundsPermutation<T>(y: T, x: T, pool: seq<T>, r: seq<T>, le: (T, T) -> bool)
    requires le(y, x)
    requires forall z :: z in pool ==> le(y, z)
    requires multiset(r) == multiset(pool) + multiset{x}
    ensures forall j :: 0 <= j < |r| ==> le(y, r[j])
  {
    forall j | 0 <= j < |r| ensures le(y, r[j]) {
      assert r[j] in multiset(r);
      assert r[j] == x || r[j] in multiset(pool);
    }
  }

  /** Insertion sort: a permutation of `s` that is ordered by `le`. */
  function InsertionSort<T(!new)>(s: seq<T>, le: (T, T) -> bool): (r: seq<T>)
    requires TotalPreorder(le)
    ensures SortedBy(r, le)
    ensures multiset(r) == multiset(s)
    decreases |s|
  {
    if |s| == 0 then []
    else
      assert s == [s[0]] + s[1..];
      Insert(s[0], InsertionSort(s[1..], le), le)
  }

  /** A permutation has the same elements. */
  lemma PermutationMembers<T>(a: seq<T>, b: seq<T>)
    requires multiset(a) == multiset(b)
    ensures forall x :: x in a <==> x in b
  {
    forall x ensures x in a <==> x in b {
      assert x in a <==> x in multiset(a);
      assert x in b <==> x in multiset(b);
    }
  }

  /** A sequence without repeats stays without repeats under any permutation. */
  lemma {:induction false} DistinctPermutation<T>(a: seq<T>, b: seq<T>)
    requires multiset(a) == multiset(b)
    requires Distinct(a)
    ensures Distinct(b)
  {
    forall i, j | 0 <= i < j < |b| ensures b[i] != b[j] {
      if b[i] == b[j] {
        var x := b[i];
        assert b == b[..i] + [x] + b[i+1..j] + [x] + b[j+1..];
        assert multiset(b)[x] >= 2;
        DistinctCountsOne(a, x);
        assert false;
      }
    }
  }

  lemma {:induction false} DistinctCountsOne<T>(s: seq<T>, x: T)
    requires Distinct(s)
    ensures multiset(s)[x] <= 1
    decreases |s|
  {
    if |s| > 0 {
      assert s == [s[0]] + s[1..];
      assert Distinct(s[1..]);
      DistinctCountsOne(s[1..], x);
      if s[0] == x {
        assert x !in s[1..];
      }
    }
  }

  /** The set of keys of the elements of `s`. */
  function KeySet<T(==), K(==)>(s: seq<T>, key: T -> K): set<K>
  {
    set x | x in s :: key(x)
  }

  /** The position of the first element of `s` with key `k`. */
  function FirstIndex<T(==), K(==)>(s: seq<T>, key: T -> K, k: K): (i: int)
    requires k in KeySet(s, key)
    ensures 0 <= i < |s| && key(s[i]) == k
    ensures forall j :: 0 <= j < i ==> key(s[j]) != k
    decreases |s|
  {
    if key(s[0]) == k then 0
    else
      var x :| x in s && key(x) == k;
      assert x in s[1..];
      1 + FirstIndex(s[1..], key, k)
  }

  /** The elements of `s` whose key has not been seen before them
      (pandas' `drop_duplicates(keep='first')`). */
  function DedupBy<T(==), K(==)>(s: seq<T>, key: T -> K): seq<T>
    decreases |s|
  {
    if |s| == 0 then []
    else
      var init := s[..|s| - 1];
      if key(s[|s| - 1]) in KeySet(init, key) then DedupBy(init, key)
      else DedupBy(init, key) + [s[|s| - 1]]
  }

  lemma FirstIndexOfPrefix<T, K>(s: seq<T>, n: int, key: T -> K, k: K)
    requires 0 <= n <= |s|
    requires k in KeySet(s[..n], key)
    ensures k in KeySet(s, key)
    ensures FirstIndex(s, key, k) == FirstIndex(s[..n], key, k)
  {
    var i := FirstIndex(s[..n], key, k);
    assert s[..n][i] == s[i];
    assert s[i] in s;
  }

  lemma KeySetSnoc<T, K>(s: seq<T>, x: T, key: T -> K)
    ensures KeySet(s + [x], key) == KeySet(s, key) + {key(x)}
  {
    assert forall y :: y in s + [x] <==> y in s || y == x;
  }

  /** De-duplication loses no key. */
  lemma {:induction false} DedupByKeySet<T, K>(s: seq<T>, key: T -> K)
    ensures KeySet(DedupBy(s, key), key) == KeySet(s, key)
    decreases |s|
  {
    if |s| > 0 {
      var n := |s| - 1;
      var init := s[..n];
      DedupByKeySet(init, key);
      assert s == init + [s[n]];
      KeySetSnoc(init, s[n], key);
      KeySetSnoc(DedupBy(init, key), s[n], key);
    }
  }

  /** De-duplication leaves no two elements with the same key. */
  lemma {:induction false} DedupByDistinct<T, K>(s: seq<T>, key: T -> K)
    ensures forall i, j :: 0 <= i < j < |DedupBy(s, key)| ==>
              key(DedupBy(s, key)[i]) != key(DedupBy(s, key)[j])
    decreases |s|
  {
    if |s| > 0 {
      var n := |s| - 1;
      var init := s[..n];
      DedupByDistinct(init, key);
      DedupByKeySet(init, key);
      var d := DedupBy(init, key);
      forall i | 0 <= i < |d| ensures key(d[i]) in KeySet(init, key) {
        assert d[i] in d;
      }
    }
  }

  /** Every kept element is the first one of `s` with its key, and the kept
      elements appear in the order of their first occurrences. */
  lemma {:induction false} DedupByFirst<T, K>(s: seq<T>, key: T -> K)
    ensures forall i :: 0 <= i < |DedupBy(s, key)| ==>
              key(DedupBy(s, key)[i]) in KeySet(s, key) &&
              DedupBy(s, key)[i] == s[FirstIndex(s, key, key(DedupBy(s, key)[i]))]
    ensures forall i, j :: 0 <= i < j < |DedupBy(s, key)| ==>
              key(DedupBy(s, key)[i]) in KeySet(s, key) &&
              key(DedupBy(s, key)[j]) in KeySet(s, key) &&
              FirstIndex(s, key, key(DedupBy(s, key)[i])) < FirstIndex(s, key, key(DedupBy(s, key)[j]))
    decreases |s|
  {
    if |s| > 0 {
      var n := |s| - 1;
      var init, x := s[..n], s[n];
      DedupByFirst(init, key);
      var d, r := DedupBy(init, key), DedupBy(s, key);
      forall i | 0 <= i < |d|
        ensures key(d[i]) in KeySet(s, key)
        ensures d[i] == s[FirstIndex(s, key, key(d[i]))]
        ensures FirstIndex(s, key, key(d[i])) == FirstIndex(init, key, key(d[i])) < n
      {
        FirstIndexOfPrefix(s, n, key, key(d[i]));
      }
      if key(x) !in KeySet(init, key) {
        assert r == d + [x];
        assert x in s;
        assert FirstIndex(s, key, key(x)) == n;
        forall i | 0 <= i < |r|
          ensures key(r[i]) in KeySet(s, key) && r[i] == s[FirstIndex(s, key, key(r[i]))]
        {
          if i < |d| { assert r[i] == d[i]; }
        }
        forall i, j | 0 <= i < j < |r|
          ensures key(r[i]) in KeySet(s, key) && key(r[j]) in KeySet(s, key)
          ensures FirstIndex(s, key, key(r[i])) < FirstIndex(s, key, key(r[j]))
        {
          assert r[i] == d[i];
          if j < |d| { assert r[j] == d[j]; }
        }
      }
    }
  }

  /** Keys already pairwise distinct: de-duplication changes nothing. */
  lemma {:induction false} DedupByDistinctKeys<T, K>(s: seq<T>, key: T -> K)
    requires forall i, j :: 0 <= i < j < |s| ==> key(s[i]) != key(s[j])
    ensures DedupBy(s, key) == s
    decreases |s|
  {
    if |s| > 0 {
      var n := |s| - 1;
      var init := s[..n];
      DedupByDistinctKeys(init, key);
      assert key(s[n]) !in KeySet(init, key) by {
        forall y | y in init ensures key(y) != key(s[n]) {
          var i :| 0 <= i < n && init[i] == y;
        }
      }
      assert s == init + [s[n]];
    }
  }

  /** De-duplicating twice is de-duplicating once. */
  lemma DedupByIdempotent<T, K>(s: seq<T>, key: T -> K)
    ensures DedupBy(DedupBy(s, key), key) == DedupBy(s, key)
  {
    DedupByDistinct(s, key);
    DedupByDistinctKeys(DedupBy(s, key), key);
  }
}

=== FILE: summary.dfy ===
/** DataSummary (covid_analysis/datasummary.py): read-only views of a frame.
    Every view is a function of the frame, so none of them can change it. */
module DataSummary {
  import opened Values
  import opened Seqs
  import opened Tables
  import DataCleaner

  const IsoCode := "iso_code"
  const Continent := "continent"
  const Location := "location"
  const Date := "date"
  const TotalCases := "total_cases"
  const TotalDeaths := "total_deaths"
  const TotalVaccinations := "total_vaccinations"

  /** The default `top_n` of the `highest_*_countries` methods. */
  const DefaultTopN := 10

  /** The shape and column labels `get_basic_info` reports (the dtypes are not modelled). */
  datatype BasicInfo = BasicInfo(numberOfRows: nat, numberOfColumns: nat, columnNames: seq<string>)

  /** `get_basic_info`: the shape of the frame and its column labels in frame order. */
  function GetBasicInfo(t: Table): (info: BasicInfo)
    ensures info.numberOfRows == |t.rows| && info.numberOfColumns == |t.columns|
    ensures info.columnNames == t.columns
  {
    BasicInfo(|t.rows|, |t.columns|, t.columns)
  }

  /** Dropping columns shrinks the reported column count by exactly the
      number of listed names the frame has. */
  lemma DropColumnsShrinksInfo(t: Table, names: seq<string>)
    requires WellFormed(t)
    ensures GetBasicInfo(DataCleaner.DropUnnecessaryColumns(t, names)).numberOfColumns
            + |Filter((c: string) => c in names, t.columns)| == GetBasicInfo(t).numberOfColumns
  {
    FilterComplement((c: string) => c !in names, (c: string) => c in names, t.columns);
  }

  /** `df[c].isnull().sum()` over the given rows. */
  function NullCount(rows: seq<Record>, c: string): (n: nat)
    ensures n <= |rows|
    ensures n == 0 <==> forall x :: x in rows ==> Cell(x, c).Some?
    ensures n == |rows| <==> forall x :: x in rows ==> Cell(x, c).None?
    decreases |rows|
  {
    if |rows| == 0 then 0
    else
      assert forall x :: x in rows <==> x == rows[0] || x in rows[1..];
      (if Cell(rows[0], c).None? then 1 else 0) + NullCount(rows[1..], c)
  }

  lemma {:induction false} NullCountComplement(rows: seq<Record>, c: string, keep: Record -> bool)
    requires forall x :: keep(x) == Cell(x, c).Some?
    ensures NullCount(rows, c) + |Filter(keep, rows)| == |rows|
    decreases |rows|
  {
    if |rows| > 0 {
      NullCountComplement(rows[1..], c, keep);
    }
  }

  /** The null count of a column is the number of rows
      `drop_rows_with_missing_values_in_column` removes. */
  lemma NullCountIsDroppedRows(t: Table, c: string)
    requires WellFormed(t) && c in t.columns
    ensures NullCount(t.rows, c) + |DataCleaner.DropRowsWithMissingValuesInColumn(t, c).value.rows| == |t.rows|
  {
    NullCountComplement(t.rows, c, (x: Record) => Cell(x, c).Some?);
  }

  /** `get_missing_values` (`isnull().sum()`): one entry per column, in frame
      order, holding the number of null cells of that column. */
  function GetMissingValues(t: Table): (r: seq<(string, nat)>)
    ensures |r| == |t.columns|
    ensures forall i :: 0 <= i < |r| ==>
              r[i].0 == t.columns[i] && r[i].1 == NullCount(t.rows, t.columns[i]) && r[i].1 <= |t.rows|
  {
    seq(|t.columns|, i requires 0 <= i < |t.columns| => (t.columns[i], NullCount(t.rows, t.columns[i])))
  }

  /** `check_null_values` (`isna().any()`): per column, whether some row is null there. */
  function CheckNullValues(t: Table): (r: seq<(string, bool)>)
    ensures |r| == |t.columns|
    ensures forall i :: 0 <= i < |r| ==>
              r[i].0 == t.columns[i] &&
              (r[i].1 <==> exists x :: x in t.rows && Cell(x, t.columns[i]).None?)
  {
    seq(|t.columns|, i requires 0 <= i < |t.columns| => (t.columns[i], NullCount(t.rows, t.columns[i]) > 0))
  }

  /** `get_missing_values_info`: the entries of `get_missing_values` whose count
      is positive, in column order. */
  function GetMissingValuesInfo(t: Table): (r: seq<(string, nat)>)
    ensures forall e :: e in r ==> e.0 in t.columns && e.1 == NullCount(t.rows, e.0) && e.1 > 0
    ensures forall c :: c in t.columns && NullCount(t.rows, c) > 0 ==> (c, NullCount(t.rows, c)) in r
    ensures IsSubsequence(r, GetMissingValues(t))
  {
    var all := GetMissingValues(t);
    var positive := (e: (string, nat)) => e.1 > 0;
    FilterSelects(positive, all);
    forall c | c in t.columns ensures (c, NullCount(t.rows, c)) in all {
      var i :| 0 <= i < |t.columns| && t.columns[i] == c;
      assert all[i] == (c, NullCount(t.rows, c));
    }
    Filter(positive, all)
  }

  /** The distinct non-null values of column `c` over the given rows. */
  function Uniques(rows: seq<Record>, c: string): (s: set<Value>)
    ensures |s| <= |rows|
    ensures |s| == 0 <==> forall x :: x in rows ==> Cell(x, c).None?
    ensures forall v :: v in s <==> exists x :: x in rows && Cell(x, c) == Some(v)
    decreases |rows|
  {
    if |rows| == 0 then {}
    else
      assert forall x :: x in rows <==> x == rows[0] || x in rows[1..];
      var rest := Uniques(rows[1..], c);
      if Cell(rows[0], c).Some? then {Cell(rows[0], c).value} + rest else rest
  }

  /** The first of `names` that is not among `columns`, if any. */
  function FirstMissing(names: seq<string>, columns: seq<string>): (r: Option<string>)
    ensures r.None? <==> forall c :: c in names ==> c in columns
    ensures r.Some? ==> exists i :: 0 <= i < |names| && names[i] == r.value && r.value !in columns &&
                                  forall j :: 0 <= j < i ==> names[j] in columns
    decreases |names|
  {
    if |names| == 0 then None
    else if names[0] !in columns then Some(names[0])
    else
      var rest := FirstMissing(names[1..], columns);
      assert forall c :: c in names <==> c == names[0] || c in names[1..];
      assert forall j :: 1 <= j < |names| ==> names[j] == names[1..][j - 1];
      rest
  }

  /** `nunique()` of each of `names`: the number of distinct non-null values. */
  function UniqueCounts(t: Table, names: seq<string>): (m: map<string, nat>)
    ensures m.Keys == ColumnSet(names)
    ensures forall c :: c in m ==> m[c] == |Uniques(t.rows, c)|
    decreases |names|
  {
    if |names| == 0 then map[]
    else
      var rest := UniqueCounts(t, names[1..]);
      assert forall c :: c in names <==> c == names[0] || c in names[1..];
      rest[names[0] := |Uniques(t.rows, names[0])|]
  }

  /** `get_unique_values_info(column_names)` (`{col: df[col].nunique() ...}`):
      the requested columns are read in order, so the first one the frame
      lacks raises a KeyError; otherwise each maps to its `UniqueCounts` entry. */
  function GetUniqueValuesInfo(t: Table, names: seq<string>): (r: Result<map<string, nat>>)
    ensures r.Ok? <==> forall c :: c in names ==> c in t.columns
    ensures r.Err? ==> exists i :: 0 <= i < |names| && r.error == KeyError(names[i]) && names[i] !in t.columns &&
                                  forall j :: 0 <= j < i ==> names[j] in t.columns
    ensures r.Ok? ==> r.value.Keys == ColumnSet(names)
    ensures r.Ok? ==> forall c :: c in r.value ==>
              r.value[c] == |Uniques(t.rows, c)| && r.value[c] <= |t.rows| &&
              (r.value[c] == 0 <==> forall x :: x in t.rows ==> Cell(x, c).None?)
  {
    match FirstMissing(names, t.columns)
    case Some(c) => Err(KeyError(c))
    case None => Ok(UniqueCounts(t, names))
  }

  /** pandas' `Series.max()`: the largest non-null value, null when there is
      none; what it computes is stated by `MaxOfIsMax`. */
  function MaxOf(s: seq<Option<Value>>): Option<Value>
    decreases |s|
  {
    if |s| == 0 then None
    else
      var rest := MaxOf(s[1..]);
      if s[0].None? then rest
      else if rest.None? || Le(rest.value, s[0].value) then s[0]
      else rest
  }

  /** pandas' `Series.min()`: the smallest non-null value, null when there is
      none; see `MinOfIsMin`. */
  function MinOf(s: seq<Option<Value>>): Option<Value>
    decreases |s|
  {
    if |s| == 0 then None
    else
      var rest := MinOf(s[1..]);
      if s[0].None? then rest
      else if rest.None? || Le(s[0].value, rest.value) then s[0]
      else rest
  }

  /** The maximum is null exactly when every entry is, is otherwise an entry,
      and no non-null entry exceeds it. */
  lemma {:induction false} MaxOfIsMax(s: seq<Option<Value>>)
    ensures MaxOf(s).None? <==> forall i :: 0 <= i < |s| ==> s[i].None?
    ensures MaxOf(s).Some? ==> MaxOf(s) in s
    ensures MaxOf(s).Some? ==> forall i :: 0 <= i < |s| && s[i].Some? ==> Le(s[i].value, MaxOf(s).value)
    decreases |s|
  {
    if |s| > 0 {
      MaxOfIsMax(s[1..]);
      LeTotalOrder();
      assert forall i :: 1 <= i < |s| ==> s[i] == s[1..][i - 1];
    }
  }

  /** The same for the minimum. */
  lemma {:induction false} MinOfIsMin(s: seq<Option<Value>>)
    ensures MinOf(s).None? <==> forall i :: 0 <= i < |s| ==> s[i].None?
    ensures MinOf(s).Some? ==> MinOf(s) in s
    ensures MinOf(s).Some? ==> forall i :: 0 <= i < |s| && s[i].Some? ==> Le(MinOf(s).value, s[i].value)
    decreases |s|
  {
    if |s| > 0 {
      MinOfIsMin(s[1..]);
      LeTotalOrder();
      assert forall i :: 1 <= i < |s| ==> s[i] == s[1..][i - 1];
    }
  }

  /** `m` is the maximum of column `c` over `rows` as pandas computes it: null
      exactly when every such cell is null, otherwise a cell of some row that
      no other non-null cell exceeds. */
  ghost predicate IsMaxOf(rows: seq<Record>, c: string, m: Option<Value>)
  {
    && (m.None? <==> forall x :: x in rows ==> Cell(x, c).None?)
    && (m.Some? ==> exists x :: x in rows && Cell(x, c) == m)
    && (m.Some? ==> forall x :: x in rows && Cell(x, c).Some? ==> Le(Cell(x, c).value, m.value))
  }

  /** The same for the minimum. */
  ghost predicate IsMinOf(rows: seq<Record>, c: string, m: Option<Value>)
  {
    && (m.None? <==> forall x :: x in rows ==> Cell(x, c).None?)
    && (m.Some? ==> exists x :: x in rows && Cell(x, c) == m)
    && (m.Some? ==> forall x :: x in rows && Cell(x, c).Some? ==> Le(m.value, Cell(x, c).value))
  }

  /** `rows[c].max()`. */
  function ColumnMax(rows: seq<Record>, c: string): Option<Value>
  {
    MaxOf(Column(rows, c))
  }

  /** `rows[c].min()`. */
  function ColumnMin(rows: seq<Record>, c: string): Option<Value>
  {
    MinOf(Column(rows, c))
  }

  /** Every cell of column `c` is an entry of `Column(rows, c)` and back. */
  lemma ColumnEntries(rows: seq<Record>, c: string)
    ensures forall x :: x in rows ==> Cell(x, c) in Column(rows, c)
    ensures forall o :: o in Column(rows, c) ==> exists x :: x in rows && Cell(x, c) == o
  {
    var col := Column(rows, c);
    forall x | x in rows ensures Cell(x, c) in col {
      var i :| 0 <= i < |rows| && rows[i] == x;
      assert col[i] == Cell(x, c);
    }
    forall o | o in col ensures exists x :: x in rows && Cell(x, c) == o {
      var i :| 0 <= i < |col| && col[i] == o;
      assert rows[i] in rows;
    }
  }

  /** `rows[c].max()` is the maximum of the column in the pandas sense. */
  lemma ColumnMaxIsMax(rows: seq<Record>, c: string)
    ensures IsMaxOf(rows, c, ColumnMax(rows, c))
  {
    MaxOfIsMax(Column(rows, c));
    ColumnEntries(rows, c);
  }

  /** `rows[c].min()` is the minimum of the column in the pandas sense. */
  lemma ColumnMinIsMin(rows: seq<Record>, c: string)
    ensures IsMinOf(rows, c, ColumnMin(rows, c))
  {
    MinOfIsMin(Column(rows, c));
    ColumnEntries(rows, c);
  }

  /** A maximum over fewer rows never exceeds the maximum over more rows. */
  lemma MaxOfSubset(a: seq<Record>, b: seq<Record>, c: string, ma: Option<Value>, mb: Option<Value>)
    requires IsMaxOf(a, c, ma) && IsMaxOf(b, c, mb)
    requires forall x :: x in a ==> x in b
    ensures ma.Some? ==> mb.Some? && Le(ma.value, mb.value)
  {
    if ma.Some? {
      var x :| x in a && Cell(x, c) == ma;
      assert x in b;
    }
  }

  /** The three maxima of a summary dictionary: total cases, total deaths,
      total vaccinations; `None` is NaN, never 0. */
  datatype MeasureSummary = MeasureSummary(
    totalCases: Option<Value>,
    totalDeaths: Option<Value>,
    totalVaccinations: Option<Value>)

  /** `m` holds the three measure maxima over `rows`. */
  ghost predicate Summarizes(rows: seq<Record>, m: MeasureSummary)
  {
    && IsMaxOf(rows, TotalCases, m.totalCases)
    && IsMaxOf(rows, TotalDeaths, m.totalDeaths)
    && IsMaxOf(rows, TotalVaccinations, m.totalVaccinations)
  }

  /** Builds the summary dictionary over the selected rows, reading the three
      measure columns in the order `country_specific_summary`,
      `global_summary` and `continent_summary` read them. */
  function Summarize(t: Table, rows: seq<Record>): (r: Result<MeasureSummary>)
    ensures r.Ok? <==> TotalCases in t.columns && TotalDeaths in t.columns && TotalVaccinations in t.columns
    ensures TotalCases !in t.columns ==> r == Err(KeyError(TotalCases))
    ensures TotalCases in t.columns && TotalDeaths !in t.columns ==> r == Err(KeyError(TotalDeaths))
    ensures TotalCases in t.columns && TotalDeaths in t.columns && TotalVaccinations !in t.columns ==>
              r == Err(KeyError(TotalVaccinations))
    ensures r.Ok? ==> Summarizes(rows, r.value)
  {
    if TotalCases !in t.columns then Err(KeyError(TotalCases))
    else if TotalDeaths !in t.columns then Err(KeyError(TotalDeaths))
    else if TotalVaccinations !in t.columns then Err(KeyError(TotalVaccinations))
    else
      ColumnMaxIsMax(rows, TotalCases);
      ColumnMaxIsMax(rows, TotalDeaths);
      ColumnMaxIsMax(rows, TotalVaccinations);
      Ok(MeasureSummary(
        ColumnMax(rows, TotalCases), ColumnMax(rows, TotalDeaths), ColumnMax(rows, TotalVaccinations)))
  }

  /** `country_specific_summary(country_code)`: the measure maxima over the rows
      whose `iso_code` equals the code; a measure is null, not 0, when no such
      row has a value for it (in particular when no row matches). */
  function CountrySpecificSummary(t: Table, countryCode: Value): (r: Result<MeasureSummary>)
    ensures IsoCode !in t.columns ==> r == Err(KeyError(IsoCode))
    ensures r.Ok? <==> IsoCode in t.columns && TotalCases in t.columns &&
                       TotalDeaths in t.columns && TotalVaccinations in t.columns
    ensures r.Ok? ==> Summarizes(Matching(t.rows, IsoCode, countryCode), r.value)
    ensures r.Ok? && (forall x :: x in t.rows ==> Cell(x, IsoCode) != Some(countryCode)) ==>
              r.value == MeasureSummary(None, None, None)
  {
    if IsoCode !in t.columns then Err(KeyError(IsoCode))
    else Summarize(t, Matching(t.rows, IsoCode, countryCode))
  }

  /** `global_summary`: the measure maxima over all rows. */
  function GlobalSummary(t: Table): (r: Result<MeasureSummary>)
    ensures r.Ok? <==> TotalCases in t.columns && TotalDeaths in t.columns && TotalVaccinations in t.columns
    ensures r.Ok? ==> Summarizes(t.rows, r.value)
  {
    Summarize(t, t.rows)
  }

  /** `continent_summary(continent)`: the measure maxima over the rows of one continent. */
  function ContinentSummary(t: Table, continent: Value): (r: Result<MeasureSummary>)
    ensures Continent !in t.columns ==> r == Err(KeyError(Continent))
    ensures r.Ok? <==> Continent in t.columns && TotalCases in t.columns &&
                       TotalDeaths in t.columns && TotalVaccinations in t.columns
    ensures r.Ok? ==> Summarizes(Matching(t.rows, Continent, continent), r.value)
  {
    if Continent !in t.columns then Err(KeyError(Continent))
    else Summarize(t, Matching(t.rows, Continent, continent))
  }

  /** `a` is defined only where `b` is, and is no larger there. */
  predicate AtMost(a: Option<Value>, b: Option<Value>)
  {
    a.Some? ==> b.Some? && Le(a.value, b.value)
  }

  predicate SummaryAtMost(a: MeasureSummary, b: MeasureSummary)
  {
    AtMost(a.totalCases, b.totalCases) && AtMost(a.totalDeaths, b.totalDeaths) &&
    AtMost(a.totalVaccinations, b.totalVaccinations)
  }

  lemma SummaryOfSubset(a: seq<Record>, b: seq<Record>, ma: MeasureSummary, mb: MeasureSummary)
    requires Summarizes(a, ma) && Summarizes(b, mb)
    requires forall x :: x in a ==> x in b
    ensures SummaryAtMost(ma, mb)
  {
    MaxOfSubset(a, b, TotalCases, ma.totalCases, mb.totalCases);
    MaxOfSubset(a, b, TotalDeaths, ma.totalDeaths, mb.totalDeaths);
    MaxOfSubset(a, b, TotalVaccinations, ma.totalVaccinations, mb.totalVaccinations);
  }

  /** A continent's maxima never exceed the global ones. */
  lemma ContinentAtMostGlobal(t: Table, continent: Value)
    ensures ContinentSummary(t, continent).Ok? ==>
              GlobalSummary(t).Ok? && SummaryAtMost(ContinentSummary(t, continent).value, GlobalSummary(t).value)
  {
    if ContinentSummary(t, continent).Ok? {
      SummaryOfSubset(Matching(t.rows, Continent, continent), t.rows,
                      ContinentSummary(t, continent).value, GlobalSummary(t).value);
    }
  }

  /** A country's maxima never exceed the global ones. */
  lemma CountryAtMostGlobal(t: Table, countryCode: Value)
    ensures CountrySpecificSummary(t, countryCode).Ok? ==>
              GlobalSummary(t).Ok? && SummaryAtMost(CountrySpecificSummary(t, countryCode).value, GlobalSummary(t).value)
  {
    if CountrySpecificSummary(t, countryCode).Ok? {
      SummaryOfSubset(Matching(t.rows, IsoCode, countryCode), t.rows,
                      CountrySpecificSummary(t, countryCode).value, GlobalSummary(t).value);
    }
  }

  /** `date_range`: the earliest and the latest date, both null when the date
      column is entirely null (NaT); otherwise both are dates of some row and
      the first is not after the second. */
  function DateRange(t: Table): (r: Result<(Option<Value>, Option<Value>)>)
    ensures r.Ok? <==> Date in t.columns
    ensures r.Err? ==> r.error == KeyError(Date)
    ensures r.Ok? ==> IsMinOf(t.rows, Date, r.value.0) && IsMaxOf(t.rows, Date, r.value.1)
    ensures r.Ok? ==> (r.value.0.Some? <==> r.value.1.Some?)
    ensures r.Ok? && r.value.0.Some? ==> Le(r.value.0.value, r.value.1.value)
  {
    if Date !in t.columns then Err(KeyError(Date))
    else
      var lo, hi := ColumnMin(t.rows, Date), ColumnMax(t.rows, Date);
      ColumnMinIsMin(t.rows, Date);
      ColumnMaxIsMax(t.rows, Date);
      assert lo.Some? ==> Le(lo.value, hi.value) by {
        if lo.Some? {
          var x :| x in t.rows && Cell(x, Date) == lo;
        }
      }
      Ok((lo, hi))
  }

  /** `groupby('location')[measure].max()` as a map from each location to the
      maximum of its non-null `measure` cells; rows with a null location, and
      locations whose cells are all null, have no entry. */
  function GroupMaxes(rows: seq<Record>, measure: string): map<Value, Value>
    decreases |rows|
  {
    if |rows| == 0 then map[]
    else
      var m := GroupMaxes(rows[1..], measure);
      match (Cell(rows[0], Location), Cell(rows[0], measure))
      case (Some(l), Some(v)) => if l in m && Le(v, m[l]) then m else m[l := v]
      case _ => m
  }

  /** The maximum of `measure` over the rows of one location, null when it has
      none; `GroupMaxIsColumnMax` shows it is the maximum of that group's column. */
  function GroupMax(t: Table, location: Value, measure: string): Option<Value>
  {
    var m := GroupMaxes(t.rows, measure);
    if location in m then Some(m[location]) else None
  }

  lemma {:induction false} GroupMaxesIsColumnMax(rows: seq<Record>, location: Value, measure: string)
    ensures var m := GroupMaxes(rows, measure);
            (if location in m then Some(m[location]) else None) ==
            ColumnMax(Matching(rows, Location, location), measure)
    decreases |rows|
  {
    if |rows| > 0 {
      GroupMaxesIsColumnMax(rows[1..], location, measure);
      LeTotalOrder();
      var tail := Matching(rows[1..], Location, location);
      if Cell(rows[0], Location) == Some(location) {
        var col := Column(Matching(rows, Location, location), measure);
        assert Matching(rows, Location, location) == [rows[0]] + tail;
        assert col[1..] == Column(tail, measure);
      } else {
        assert Matching(rows, Location, location) == tail;
      }
    }
  }

  lemma GroupMaxIsColumnMax(t: Table, location: Value, measure: string)
    ensures GroupMax(t, location, measure) == ColumnMax(Matching(t.rows, Location, location), measure)
  {
    GroupMaxesIsColumnMax(t.rows, location, measure);
  }

  /** The non-null values of a column, in order. */
  function Present(col: seq<Option<Value>>): (r: seq<Value>)
    ensures forall v :: v in r <==> Some(v) in col
    decreases |col|
  {
    if |col| == 0 then []
    else
      assert forall o :: o in col <==> o == col[0] || o in col[1..];
      (if col[0].Some? then [col[0].value] else []) + Present(col[1..])
  }

  function Identity(v: Value): Value { v }

  /** Deduplicating values by themselves keeps every value once. */
  lemma DedupIdentity(s: seq<Value>)
    ensures Distinct(DedupBy(s, Identity))
    ensures forall v :: v in DedupBy(s, Identity) <==> v in s
  {
    var unique := DedupBy(s, Identity);
    DedupByKeySet(s, Identity);
    DedupByDistinct(s, Identity);
    forall v ensures v in unique <==> v in s {
      if v in s {
        assert Identity(v) in KeySet(s, Identity);
        var y :| y in unique && Identity(y) == Identity(v);
      }
      if v in unique {
        assert Identity(v) in KeySet(unique, Identity);
        var y :| y in s && Identity(y) == Identity(v);
      }
    }
  }

  /** The group keys of `groupby('location')`: the distinct non-null locations, ascending. */
  function GroupKeys(t: Table): (r: seq<Value>)
    ensures Distinct(r) && SortedBy(r, Le)
    ensures forall v :: v in r <==> exists x :: x in t.rows && Cell(x, Location) == Some(v)
  {
    var col := Column(t.rows, Location);
    var present := Present(col);
    var unique := DedupBy(present, Identity);
    DedupIdentity(present);
    ColumnEntries(t.rows, Location);
    LeTotalOrder();
    assert TotalPreorder(Le);
    var sorted := InsertionSort(unique, Le);
    DistinctPermutation(unique, sorted);
    PermutationMembers(unique, sorted);
    sorted
  }

  /** The (location, maximum) pairs of the groups whose maximum is not NaN, in key order. */
  function Groups(t: Table, keys: seq<Value>, measure: string): (r: seq<(Value, Value)>)
    ensures forall e :: e in r ==> e.0 in keys && GroupMax(t, e.0, measure) == Some(e.1)
    ensures forall l :: l in keys && GroupMax(t, l, measure).Some? ==> (l, GroupMax(t, l, measure).value) in r
    ensures Distinct(keys) ==> Distinct(r)
    decreases |keys|
  {
    if |keys| == 0 then []
    else
      var rest := Groups(t, keys[1..], measure);
      assert forall l :: l in keys <==> l == keys[0] || l in keys[1..];
      assert Distinct(keys) ==> Distinct(keys[1..]) && keys[0] !in keys[1..];
      match GroupMax(t, keys[0], measure)
      case Some(v) => [(keys[0], v)] + rest
      case None => rest
  }

  /** Larger per-location maxima first. */
  function ByValueDescending(): ((Value, Value), (Value, Value)) -> bool
  {
    (a: (Value, Value), b: (Value, Value)) => Le(b.1, a.1)
  }

  lemma ByValueDescendingIsTotalPreorder()
    ensures TotalPreorder(ByValueDescending())
  {
    LeTotalOrder();
  }

  /** No location is named twice among the pairs. */
  predicate DistinctLocations(r: seq<(Value, Value)>)
  {
    forall i, j :: 0 <= i < j < |r| ==> r[i].0 != r[j].0
  }

  /** `groupby('location')[measure].max().nlargest(top_n)` when both columns
      exist: at most `top_n` (location, per-location maximum) pairs, largest
      first, none for `top_n <= 0`; fewer than `top_n` only when every
      location with a maximum is listed; every location left out has a
      maximum no larger than the smallest one listed. */
  function TopLocations(t: Table, measure: string, topN: int): (r: seq<(Value, Value)>)
    ensures topN <= 0 ==> r == []
    ensures |r| <= topN || r == []
    ensures TrueMaxima(t, measure, r)
    ensures LeavesOutSmaller(t, measure, topN, r)
  {
    var ranked := Ranked(t, measure);
    var r := Cut(ranked, topN);
    TopKeepsRanking(t, measure, ranked, topN, r);
    TopIsComplete(t, measure, ranked, topN, r);
    r
  }

  /** Every entry of `r` pairs a location with its maximum; larger maxima come
      first and no location is named twice. */
  ghost predicate TrueMaxima(t: Table, measure: string, r: seq<(Value, Value)>)
  {
    && (forall i :: 0 <= i < |r| ==> GroupMax(t, r[i].0, measure) == Some(r[i].1))
    && (forall i, j :: 0 <= i < j < |r| ==> Le(r[j].1, r[i].1))
    && DistinctLocations(r)
  }

  /** Fewer than `topN` entries only when every location with a maximum is
      listed, and a location left out has a maximum no larger than the last entry. */
  ghost predicate LeavesOutSmaller(t: Table, measure: string, topN: int, r: seq<(Value, Value)>)
  {
    && (|r| < topN ==> forall l :: GroupMax(t, l, measure).Some? ==> Listed(r, l))
    && (|r| > 0 ==>
          forall l :: GroupMax(t, l, measure).Some? && !Listed(r, l) ==>
            Le(GroupMax(t, l, measure).value, r[|r| - 1].1))
  }

  /** Location `l` has an entry in the ranking `r`. */
  predicate Listed(r: seq<(Value, Value)>, l: Value)
  {
    exists i :: 0 <= i < |r| && r[i].0 == l
  }

  /** Some row holds a text in column `c`, which makes the column's dtype
      `object`. */
  predicate HoldsText(rows: seq<Record>, c: string)
  {
    exists x :: x in rows && Cell(x, c).Some? && Cell(x, c).value.Text?
  }

  /** The `highest_*_countries` computation: a KeyError when the frame lacks
      the location or the measure column; a TypeError when the measure holds
      texts, since `nlargest` refuses `object` columns; the top locations
      otherwise. */
  function Highest(t: Table, measure: string, topN: int): (r: Result<seq<(Value, Value)>>)
    ensures r.Ok? <==> Location in t.columns && measure in t.columns && !HoldsText(t.rows, measure)
    ensures Location !in t.columns ==> r == Err(KeyError(Location))
    ensures Location in t.columns && measure !in t.columns ==> r == Err(KeyError(measure))
    ensures Location in t.columns && measure in t.columns && HoldsText(t.rows, measure) ==> r == Err(TypeError)
    ensures r.Ok? ==> r.value == TopLocations(t, measure, topN)
  {
    if Location !in t.columns then Err(KeyError(Location))
    else if measure !in t.columns then Err(KeyError(measure))
    else if HoldsText(t.rows, measure) then Err(TypeError)
    else Ok(TopLocations(t, measure, topN))
  }

  /** Every location with a non-NaN maximum is a group key. */
  lemma GroupMaxHasKey(t: Table, measure: string, l: Value)
    requires GroupMax(t, l, measure).Some?
    ensures l in GroupKeys(t)
  {
    GroupMaxIsColumnMax(t, l, measure);
    ColumnMaxIsMax(Matching(t.rows, Location, l), measure);
    var x :| x in Matching(t.rows, Location, l) && Cell(x, measure) == GroupMax(t, l, measure);
    assert x in t.rows && Cell(x, Location) == Some(l);
  }

  /** `ranked` lists every (location, maximum) pair, larger maxima first, each
      location once. */
  ghost predicate RankingOf(t: Table, measure: string, ranked: seq<(Value, Value)>)
  {
    && SortedBy(ranked, ByValueDescending())
    && (forall e :: e in ranked ==> GroupMax(t, e.0, measure) == Some(e.1))
    && (forall l :: GroupMax(t, l, measure).Some? ==> (l, GroupMax(t, l, measure).value) in ranked)
    && DistinctLocations(ranked)
  }

  /** All (location, maximum) pairs, larger maxima first, each location once. */
  function Ranked(t: Table, measure: string): (r: seq<(Value, Value)>)
    ensures RankingOf(t, measure, r)
  {
    RankedFacts(t, measure);
    SortGroups(t, measure)
  }

  /** The groups sorted by descending maximum. */
  function SortGroups(t: Table, measure: string): (r: seq<(Value, Value)>)
    ensures SortedBy(r, ByValueDescending())
    ensures multiset(r) == multiset(Groups(t, GroupKeys(t), measure))
  {
    ByValueDescendingIsTotalPreorder();
    InsertionSort(Groups(t, GroupKeys(t), measure), ByValueDescending())
  }

  lemma RankedFacts(t: Table, measure: string)
    ensures forall e :: e in SortGroups(t, measure) ==> GroupMax(t, e.0, measure) == Some(e.1)
    ensures forall l :: GroupMax(t, l, measure).Some? ==> (l, GroupMax(t, l, measure).value) in SortGroups(t, measure)
    ensures DistinctLocations(SortGroups(t, measure))
  {
    var groups, ranked := Groups(t, GroupKeys(t), measure), SortGroups(t, measure);
    RankedEntries(t, measure, groups, ranked);
    RankedHasEveryGroup(t, measure, groups, ranked);
    RankedDistinctLocations(t, measure, groups, ranked);
  }

  lemma RankedEntries(t: Table, measure: string, groups: seq<(Value, Value)>, ranked: seq<(Value, Value)>)
    requires groups == Groups(t, GroupKeys(t), measure)
    requires multiset(groups) == multiset(ranked)
    ensures forall e :: e in ranked ==> GroupMax(t, e.0, measure) == Some(e.1)
  {
    PermutationMembers(groups, ranked);
    forall e | e in ranked ensures GroupMax(t, e.0, measure) == Some(e.1) {
      assert e in groups;
    }
  }

  lemma RankedHasEveryGroup(t: Table, measure: string, groups: seq<(Value, Value)>, ranked: seq<(Value, Value)>)
    requires groups == Groups(t, GroupKeys(t), measure)
    requires multiset(groups) == multiset(ranked)
    ensures forall l :: GroupMax(t, l, measure).Some? ==> (l, GroupMax(t, l, measure).value) in ranked
  {
    PermutationMembers(groups, ranked);
    forall l | GroupMax(t, l, measure).Some?
      ensures (l, GroupMax(t, l, measure).value) in ranked
    {
      GroupMaxHasKey(t, measure, l);
    }
  }

  lemma RankedDistinctLocations(t: Table, measure: string, groups: seq<(Value, Value)>, ranked: seq<(Value, Value)>)
    requires groups == Groups(t, GroupKeys(t), measure)
    requires multiset(groups) == multiset(ranked)
    ensures DistinctLocations(ranked)
  {
    PermutationMembers(groups, ranked);
    DistinctPermutation(groups, ranked);
    forall i, j | 0 <= i < j < |ranked| ensures ranked[i].0 != ranked[j].0 {
      assert ranked[i] in groups && ranked[j] in groups;
    }
  }

  /** What `nlargest(n)` keeps of a ranking: its first `n` entries, none for `n <= 0`. */
  function Cut(ranked: seq<(Value, Value)>, topN: int): seq<(Value, Value)>
  {
    if topN <= 0 then [] else ranked[..Min(topN, |ranked|)]
  }

  /** The kept entries are true per-location maxima, largest first, each location once. */
  lemma TopKeepsRanking(t: Table, measure: string, ranked: seq<(Value, Value)>, topN: int, r: seq<(Value, Value)>)
    requires RankingOf(t, measure, ranked) && r == Cut(ranked, topN)
    ensures |r| <= topN || r == []
    ensures TrueMaxima(t, measure, r)
  {
    assert forall i :: 0 <= i < |r| ==> r[i] == ranked[i];
    forall i | 0 <= i < |r| ensures GroupMax(t, r[i].0, measure) == Some(r[i].1) {
      assert ranked[i] in ranked;
    }
    forall i, j | 0 <= i < j < |r| ensures Le(r[j].1, r[i].1) {
      assert ByValueDescending()(ranked[i], ranked[j]);
    }
  }

  /** Nothing is cut when fewer than `n` locations have a maximum, and whatever
      is cut is no larger than the last entry kept. */
  lemma TopIsComplete(t: Table, measure: string, ranked: seq<(Value, Value)>, topN: int, r: seq<(Value, Value)>)
    requires RankingOf(t, measure, ranked) && r == Cut(ranked, topN)
    ensures LeavesOutSmaller(t, measure, topN, r)
  {
    if |r| < topN {
      ShortTopListsAll(t, measure, ranked, topN, r);
    }
    if |r| > 0 {
      TopCutsSmaller(t, measure, ranked, topN, r);
    }
  }

  lemma ShortTopListsAll(t: Table, measure: string, ranked: seq<(Value, Value)>, topN: int, r: seq<(Value, Value)>)
    requires RankingOf(t, measure, ranked) && r == Cut(ranked, topN) && |r| < topN
    ensures forall l :: GroupMax(t, l, measure).Some? ==> Listed(r, l)
  {
    assert r == ranked;
    forall l | GroupMax(t, l, measure).Some? ensures Listed(r, l) {
      var e := (l, GroupMax(t, l, measure).value);
      assert e in ranked;
      var p :| 0 <= p < |ranked| && ranked[p] == e;
      assert r[p].0 == l;
    }
  }

  lemma TopCutsSmaller(t: Table, measure: string, ranked: seq<(Value, Value)>, topN: int, r: seq<(Value, Value)>)
    requires RankingOf(t, measure, ranked) && r == Cut(ranked, topN) && |r| > 0
    ensures forall l :: GroupMax(t, l, measure).Some? && !Listed(r, l) ==>
              Le(GroupMax(t, l, measure).value, r[|r| - 1].1)
  {
    assert forall i :: 0 <= i < |r| ==> r[i] == ranked[i];
    forall l | GroupMax(t, l, measure).Some? && !Listed(r, l)
      ensures Le(GroupMax(t, l, measure).value, r[|r| - 1].1)
    {
      var e := (l, GroupMax(t, l, measure).value);
      assert e in ranked;
      var p :| 0 <= p < |ranked| && ranked[p] == e;
      assert p >= |r|;
      assert ByValueDescending()(ranked[|r| - 1], ranked[p]);
    }
  }

  /** `highest_case_countries(top_n)`. */
  function HighestCaseCountries(t: Table, topN: int := DefaultTopN): Result<seq<(Value, Value)>>
  {
    Highest(t, TotalCases, topN)
  }

  /** `highest_death_countries(top_n)`. */
  function HighestDeathCountries(t: Table, topN: int := DefaultTopN): Result<seq<(Value, Value)>>
  {
    Highest(t, TotalDeaths, topN)
  }

  /** `highest_vaccination_countries(top_n)`. */
  function HighestVaccinationCountries(t: Table, topN: int := DefaultTopN): Result<seq<(Value, Value)>>
  {
    Highest(t, TotalVaccinations, topN)
  }

  /** The (date, measure) pair of each row. */
  function DatePairs(rows: seq<Record>, measure: string): (r: seq<(Option<Value>, Option<Value>)>)
    ensures |r| == |rows|
    ensures forall i :: 0 <= i < |rows| ==> r[i] == (Cell(rows[i], Date), Cell(rows[i], measure))
  {
    seq(|rows|, i requires 0 <= i < |rows| => (Cell(rows[i], Date), Cell(rows[i], measure)))
  }

  /** Taking the pairs of a subsequence gives a subsequence of the pairs. */
  lemma DatePairsOfSubsequence(a: seq<Record>, b: seq<Record>, measure: string)
    requires IsSubsequence(a, b)
    ensures IsSubsequence(DatePairs(a, measure), DatePairs(b, measure))
  {
    var idx :| Embeds(idx, a, b);
    assert Embeds(idx, DatePairs(a, measure), DatePairs(b, measure));
  }

  /** `trend_over_time(country_code, measure)`: the (date, measure) pairs of the
      rows of one country, in row order (not re-sorted by date); they are the
      pairs of `filter_by_value('iso_code', country_code)`, a subsequence of
      the pairs of all rows. */
  function TrendOverTime(t: Table, countryCode: Value, measure: string): (r: Result<seq<(Option<Value>, Option<Value>)>>)
    requires WellFormed(t)
    ensures r.Ok? <==> IsoCode in t.columns && Date in t.columns && measure in t.columns
    ensures IsoCode !in t.columns ==> r == Err(KeyError(IsoCode))
    ensures IsoCode in t.columns && Date !in t.columns ==> r == Err(KeyError(Date))
    ensures IsoCode in t.columns && Date in t.columns && measure !in t.columns ==> r == Err(KeyError(measure))
    ensures r.Ok? ==> r.value == DatePairs(DataCleaner.FilterByValue(t, IsoCode, countryCode).value.rows, measure)
    ensures r.Ok? ==> IsSubsequence(r.value, DatePairs(t.rows, measure))
    ensures r.Ok? ==> forall p :: p in r.value ==>
              exists x :: x in t.rows && Cell(x, IsoCode) == Some(countryCode) && p == (Cell(x, Date), Cell(x, measure))
  {
    if IsoCode !in t.columns then Err(KeyError(IsoCode))
    else if Date !in t.columns then Err(KeyError(Date))
    else if measure !in t.columns then Err(KeyError(measure))
    else
      var rows := DataCleaner.FilterByValue(t, IsoCode, countryCode).value.rows;
      MatchingPairs(t.rows, rows, countryCode, measure);
      Ok(DatePairs(rows, measure))
  }

  /** The pairs of the rows of one country come, in order, from rows of that country. */
  lemma MatchingPairs(all: seq<Record>, rows: seq<Record>, countryCode: Value, measure: string)
    requires IsSubsequence(rows, all)
    requires forall x :: x in rows ==> x in all && Cell(x, IsoCode) == Some(countryCode)
    ensures IsSubsequence(DatePairs(rows, measure), DatePairs(all, measure))
    ensures forall p :: p in DatePairs(rows, measure) ==>
              exists x :: x in all && Cell(x, IsoCode) == Some(countryCode) && p == (Cell(x, Date), Cell(x, measure))
  {
    DatePairsOfSubsequence(rows, all, measure);
    var pairs := DatePairs(rows, measure);
    forall p | p in pairs
      ensures exists x :: x in all && Cell(x, IsoCode) == Some(countryCode) && p == (Cell(x, Date), Cell(x, measure))
    {
      var k :| 0 <= k < |pairs| && pairs[k] == p;
      assert rows[k] in rows;
    }
  }
}

=== FILE: tables.dfy ===
/** A pandas DataFrame as an immutable value: the ordered column labels and
    the rows, each carrying its index label and a map from column to cell. */
module Tables {
  import opened Values
  import opened Seqs

  type Row = map<string, Option<Value>>

  /** One row: its index label (`index`) and its cells. */
  datatype Record = Record(index: int, cells: Row)

  datatype Table = Table(columns: seq<string>, rows: seq<Record>)

  function ColumnSet(columns: seq<string>): set<string>
  {
    set c | c in columns
  }

  /** A row has exactly one cell per column of its frame. */
  predicate Fits(columns: seq<string>, x: Record)
  {
    x.cells.Keys == ColumnSet(columns)
  }

  /** Column labels are unique and every row fits them. */
  predicate WellFormed(t: Table)
  {
    Distinct(t.columns) && forall x :: x in t.rows ==> Fits(t.columns, x)
  }

  /** The cell of `x` in column `c`; null when the row has no such column. */
  function Cell(x: Record, c: string): Option<Value>
  {
    if c in x.cells then x.cells[c] else None
  }

  function CellsOf(x: Record): Row
  {
    x.cells
  }

  /** The column `c` of the given rows, top to bottom (`df[c]`). */
  function Column(rows: seq<Record>, c: string): (col: seq<Option<Value>>)
    ensures |col| == |rows|
    ensures forall i :: 0 <= i < |rows| ==> col[i] == Cell(rows[i], c)
  {
    seq(|rows|, i requires 0 <= i < |rows| => Cell(rows[i], c))
  }

  /** The rows whose cell in `c` equals `key` (`df[df[c] == key]`); a null
      cell never compares equal. */
  function Matching(rows: seq<Record>, c: string, key: Value): seq<Record>
  {
    Filter((x: Record) => Cell(x, c) == Some(key), rows)
  }

  /** Two frames with the same columns, labels and cells are the same frame. */
  lemma TableExt(a: Table, b: Table)
    requires WellFormed(a) && WellFormed(b)
    requires a.columns == b.columns && |a.rows| == |b.rows|
    requires forall i :: 0 <= i < |a.rows| ==> a.rows[i].index == b.rows[i].index
    requires forall i, c :: 0 <= i < |a.rows| ==> Cell(a.rows[i], c) == Cell(b.rows[i], c)
    ensures a == b
  {
    forall i | 0 <= i < |a.rows| ensures a.rows[i] == b.rows[i] {
      var x, y := a.rows[i], b.rows[i];
      assert x in a.rows && y in b.rows;
      assert x.cells.Keys == y.cells.Keys;
      forall c | c in x.cells ensures x.cells[c] == y.cells[c] {
        assert Cell(x, c) == Cell(y, c);
      }
      assert x.cells == y.cells;
    }
  }
}

=== FILE: values.dfy ===
/** Cell values of a data frame, the null marker, the failure type of the
    operations that index a missing column, and the order pandas uses when it
    compares two values (max, min, sort_values, nlargest). */
module Values {

  /** `None` stands for NaN / None / NaT in a pandas column. */
  datatype Option<+T> = None | Some(value: T)

  /** A non-null cell: a measure (integer), a string, or a date given as a day number. */
  datatype Value = Num(n: int) | Text(s: string) | Day(d: int)

  /** The exceptions the modelled code can raise. */
  datatype Error =
    | KeyError(key: string)          // df[column] on a column that is not there
    | IndexError                     // list index out of range
    | FileNotFoundError(path: string) // open() on a path that cannot be created
    | TypeError                      // an operation the values' dtype does not support

  datatype Result<+T> = Ok(value: T) | Err(error: Error)

  function Min(a: int, b: int): int { if a <= b then a else b }

  /** Python compares strings code point by code point. */
  predicate StrLe(a: string, b: string)
    decreases |a|
  {
    |a| == 0 || (|b| > 0 && (a[0] < b[0] || (a[0] == b[0] && StrLe(a[1..], b[1..]))))
  }

  function Rank(v: Value): nat
  {
    match v
    case Num(_) => 0
    case Text(_) => 1
    case Day(_) => 2
  }

  /** `a <= b`. Values of one kind compare as Python does; values of
      different kinds are ordered by kind. */
  predicate Le(a: Value, b: Value)
  {
    match (a, b)
    case (Num(x), Num(y)) => x <= y
    case (Text(x), Text(y)) => StrLe(x, y)
    case (Day(x), Day(y)) => x <= y
    case _ => Rank(a) < Rank(b)
  }

  lemma {:induction false} StrLeTotal(a: string, b: string)
    ensures StrLe(a, b) || StrLe(b, a)
    decreases |a|
  {
    if |a| > 0 && |b| > 0 && a[0] == b[0] {
      StrLeTotal(a[1..], b[1..]);
    }
  }

  lemma {:induction false} StrLeTrans(a: string, b: string, c: string)
    requires StrLe(a, b) && StrLe(b, c)
    ensures StrLe(a, c)
    decreases |a|
  {
    if |a| > 0 && a[0] == b[0] && b[0] == c[0] {
      StrLeTrans(a[1..], b[1..], c[1..]);
    }
  }

  lemma {:induction false} StrLeAntisym(a: string, b: string)
    requires StrLe(a, b) && StrLe(b, a)
    ensures a == b
    decreases |a|
  {
    if |a| > 0 {
      StrLeAntisym(a[1..], b[1..]);
      assert a == [a[0]] + a[1..];
      assert b == [b[0]] + b[1..];
    }
  }

  /** `Le` is a total order on values. */
  lemma LeTotalOrder()
    ensures forall a :: Le(a, a)
    ensures forall a, b :: Le(a, b) || Le(b, a)
    ensures forall a, b :: Le(a, b) && Le(b, a) ==> a == b
    ensures forall a, b, c :: Le(a, b) && Le(b, c) ==> Le(a, c)
  {
    forall a ensures Le(a, a) {
      if a.Text? { StrLeTotal(a.s, a.s); }
    }
    forall a, b ensures Le(a, b) || Le(b, a) {
      if a.Text? && b.Text? { StrLeTotal(a.s, b.s); }
    }
    forall a, b | Le(a, b) && Le(b, a) ensures a == b {
      if a.Text? && b.Text? { StrLeAntisym(a.s, b.s); }
    }
    forall a, b, c | Le(a, b) && Le(b, c) ensures Le(a, c) {
      if a.Text? && b.Text? && c.Text? { StrLeTrans(a.s, b.s, c.s); }
    }
  }
}
